=== FILE: README.md ===
# libairspy core: IQ converter, sample decoding, streaming flags

A Dafny model of the sequential core of the Airspy host library.

## Float half-band Hilbert IQ converter

The converter turns a block of real samples into interleaved I/Q samples at half the rate.

- `IqSpec` is the functional model: a `Converter` state record and `Process`, one call on a block whose length is a multiple of four.
  - The state holds the kernel, the DC estimate, the two unused position counters, the 46 history entries of the filter queue and the 24 live delay-line entries.
  - Each sample has the running DC estimate subtracted, then the estimate moves by 0.01 times the difference.
  - Queue positions `≡ 0 (mod 4)` are negated.
  - Even outputs are the 12 symmetric kernel pairs over a 47-entry queue window.
  - Odd outputs read the delay line 24 positions late. The delay line holds `∓hbc·d` at positions `≡ 1, 3 (mod 4)`.
- `IqProps` proves the structural properties:
  - splitting a block across calls changes nothing;
  - a quiet converter fed zeros stays quiet and outputs zeros;
  - reset is idempotent;
  - the counters are never read, so a fresh converter and a reset one agree;
  - the quadrature branch stays aligned with the centre of the in-phase window, across calls;
  - for a symmetric 47-tap kernel the 12 folded pairs equal the full even-tap convolution.
- `IqLayout` states the allocation arithmetic: reset sizes against allocations, disjoint carry copies, and the touched indices inside the buffers.
- `IqConverterFloat.FloatConverter` is the in-place array version, with the C code's buffers, group loop and carries. It is proved to refine `IqSpec.Process`.

Samples are `real`. The model is exact where the C code computes in single precision.

## Raw sample decoding and the packed-format unpacker

- `SampleDecode` models the fixed-point decode `(raw − 2048) << 3` and the float decode `(raw − 2048) · 2^−12`. It also models the two per-buffer conversion loops.
- `Unpack` models the 12-bit unpacker over `bv32` words, three words to eight samples. It adds an independent bit-field definition, a packer, round trips in both directions, and the sample-count arithmetic of the packed format.

## Streaming control

`Streaming` models each function as one atomic step on the flags `streaming`, `stopRequested` and `dataAvailable`. The functions are:

- the USB completion handler;
- one pass of the conversion thread;
- transfer submission;
- stream creation and teardown;
- receiver mode, start and stop.

USB results, thread-creation results and the user callback's return value are parameters.

`StreamingProps` adds:

- the start/stop rules;
- an interleaving model, `Sys`, with an invariant that holds over any sequence of completions and conversion passes. The invariant accounts for every accepted, copied, dropped and delivered block.

`SpiFlash` models the address check and the address split of the SPI flash write.

Where the code and the design description disagree, the model follows the code:

- The completion handler does not count dropped blocks. `total_dropped_samples` is never changed.
- The conversion thread's first pass does not wait for data. It converts whatever the receive buffer holds.
- A start that fails after submission or thread creation returns with `streaming` still raised. It does not leave the device in a not-started state.

## Model

| member | source | states |
|---|---|---|
| IqSpec.Create | libairspy/src/iqconverter_float_tuned.c:82-96 | a `len`-tap kernel yields `len/2+1` retained taps `fir[i] = hb[2i]` and centre tap `hb[len/2]`; the state starts quiet with the queue counter set to `len` |
| IqSpec.Reset | libairspy/src/iqconverter_float_tuned.c:108-114 | reset keeps the kernel, zeroes the DC estimate, both counters, the history and the delay line |
| IqSpec.Process | libairspy/src/iqconverter_float_tuned.c:118-173 | one call emits one output per input sample, keeps the kernel and leaves both position counters untouched |
| IqProps.AvgSplit | libairspy/src/iqconverter_float_tuned.c:119-127 | the DC estimate reached after `x` is the one the next block starts from: running the estimator over `x + y` equals running it over `y` from the estimate after `x` |
| IqProps.RemovedSplit | libairspy/src/iqconverter_float_tuned.c:126-127 | the DC-removed samples of `x + y` are those of `x` followed by those of `y` started from the carried estimate |
| IqProps.DcSteady | libairspy/src/iqconverter_float_tuned.c:143-148 | a constant input equal to the current estimate is removed entirely and leaves the estimate where it is |
| IqProps.SplitCarry | libairspy/src/iqconverter_float_tuned.c:169-170 | the history and delay entries carried out of a call on `x` are the queue and delay line the combined call on `x + y` uses from the end of `x` on |
| IqProps.SplitOutputs | libairspy/src/iqconverter_float_tuned.c:125-170 | the outputs of one call on `x + y` are the outputs on `x` followed by the outputs on `y` from the carried state |
| IqProps.ProcessSplit | libairspy/src/iqconverter_float_tuned.c:169-172 | processing `x` then `y` yields the same outputs and the same final state as processing `x + y` in one call |
| IqProps.RunIsOneCall | libairspy/test/test_iqconverter_float.c:33-39 | feeding a stream in any batches whose sizes are multiples of four gives the outputs and final state of a single call on the whole stream |
| IqProps.QuietZeroBlock | libairspy/src/iqconverter_float_tuned.c:118-173 | a quiet converter fed an all-zero block outputs all zeros and returns exactly the same state |
| IqProps.QuietZeroRun | libairspy/src/iqconverter_float_tuned.c:108-114 | any number of zero blocks through a reset converter give zero output and leave it quiet |
| IqProps.ResetIdempotent | libairspy/src/iqconverter_float_tuned.c:108-114 | resetting twice is the same as resetting once |
| IqProps.CountersIgnored | libairspy/src/iqconverter_float_tuned.c:118-173 | two converters differing only in `fir_index`/`delay_index` produce identical outputs on every sequence of blocks and end in states that still differ only there |
| IqProps.FreshEqualsReset | libairspy/src/iqconverter_float_tuned.c:91-92 | a freshly created converter and any reset converter holding the same kernel give identical outputs on identical input |
| IqProps.QuietCoherent | libairspy/src/iqconverter_float_tuned.c:108-114 | a zeroed state already satisfies the quadrature/history alignment invariant |
| IqProps.QuadratureAligned | libairspy/src/iqconverter_float_tuned.c:142-145 | odd output `j` is `∓hbc` (sign by `j mod 4`) times queue entry `j+22`, the centre of the in-phase window beside it, whenever the carried state is coherent |
| IqProps.CoherentPreserved | libairspy/src/iqconverter_float_tuned.c:162-170 | the carried delay entries stay aligned with the carried history across a call, so I/Q alignment holds over any number of calls |
| IqProps.OddOutputsDelayed | libairspy/src/iqconverter_float_tuned.c:142-145 | odd outputs before 24 are the pending delay entries of the previous call; later odd output `p` is `−hbc·d(p−24)` at `p ≡ 1` and `+hbc·d(p−24)` at `p ≡ 3 (mod 4)` |
| IqProps.QuietOddPrefixZero | libairspy/test/test_iqconverter_float.c:10 | from a fresh or reset state, odd outputs 1 to 23 are exactly zero |
| IqProps.HalfBandFolding | libairspy/src/iqconverter_float_tuned.c:82-96 | for a symmetric 47-tap kernel create keeps 24 taps with the centre at index 23, and the 12 folded pairs equal the convolution with all 24 retained taps |
| IqLayout.ResetMatchesAllocation | libairspy/src/iqconverter_float_tuned.c:88-89 | reset's queue clear equals the queue allocation exactly for 47 taps, overruns it for fewer and leaves a tail for more; the delay-line clear always equals its allocation |
| IqLayout.CarryCopiesDisjoint | libairspy/src/iqconverter_float_tuned.c:169-170 | for a block length that is a multiple of four, the two carry copies have disjoint source and destination exactly when the block holds at least 48 samples |
| IqLayout.TouchedIndicesFit | libairspy/src/iqconverter_float_tuned.c:123-170 | the largest queue index (`n + 45`) and delay-line index (`n + 27`) of a call fit the 47-tap allocations exactly when the block holds at most 262144 samples; that every single access is in bounds is what the verified array accesses of `FloatConverter.Process` establish |
| IqConverterFloat.FirUnrolled | libairspy/src/iqconverter_float_tuned.c:129-140 | the twelve written-out products equal the recursive pair sum of the functional model |
| IqConverterFloat.PositionFacts | libairspy/src/iqconverter_float_tuned.c:126-128 | processing position `j` subtracts the estimate, advances the estimate by 0.01 of the difference, stores the value negated only at `j ≡ 0 (mod 4)` and writes its quadrature value 24 slots later |
| IqConverterFloat.FloatConverter.Create | libairspy/src/iqconverter_float_tuned.c:77-99 | the allocated converter's abstract state is exactly the functional `Create` of the same kernel, its queue has `262144 + len − 1` entries, and the kernel, queue and delay line are all newly allocated |
| IqConverterFloat.FloatConverter.Reset | libairspy/src/iqconverter_float_tuned.c:108-114 | the array reset leaves a valid converter whose abstract state is exactly the functional reset of the state it had, with `262144 + 46` queue entries and the whole delay line zero; the kernel, queue and delay line stay the same arrays, so the converter can go on filtering |
| IqConverterFloat.FloatConverter.Clear | libairspy/src/iqconverter_float_tuned.c:108-114 | zeroes the estimate, both counters, `262144 + 46` queue entries and the whole delay line, and keeps the kernel and the buffers |
| IqConverterFloat.FilterAfterReset | libairspy/src/iqconverter_float_tuned.c:108-114 | after create, one filtered block and a reset, the next block comes out exactly as a newly created converter with the same kernel would filter it |
| IqConverterFloat.FloatConverter.InPhase | libairspy/src/iqconverter_float_tuned.c:129-140 | the in-phase sum read from the arrays equals the functional twelve-pair sum over the queue contents the window holds |
| IqConverterFloat.FloatConverter.CopyIn | libairspy/src/iqconverter_float_tuned.c:123 | the block lands behind the 46 history entries, which are left untouched |
| IqConverterFloat.FloatConverter.Step0 | libairspy/src/iqconverter_float_tuned.c:126-140 | the first position of a group advances the array state by exactly one position of the functional model |
| IqConverterFloat.FloatConverter.Step1 | libairspy/src/iqconverter_float_tuned.c:142-145 | the second position of a group emits the delayed quadrature value and writes `−hbc·d` into the delay line, as the functional model does |
| IqConverterFloat.FloatConverter.Step2 | libairspy/src/iqconverter_float_tuned.c:147-160 | the third position of a group stores the unnegated value and emits the in-phase sum, as the functional model does |
| IqConverterFloat.FloatConverter.Step3 | libairspy/src/iqconverter_float_tuned.c:162-165 | the fourth position of a group emits the delayed quadrature value and writes `+hbc·d` into the delay line, as the functional model does |
| IqConverterFloat.FloatConverter.Filter | libairspy/src/iqconverter_float_tuned.c:125-167 | after the group loop the outputs, queue, delay line and estimate are those of the functional call, and even delay slots stay zero |
| IqConverterFloat.FloatConverter.Carry | libairspy/src/iqconverter_float_tuned.c:169-170 | the last 46 queue entries and the last 28 delay entries of the block move to the front |
| IqConverterFloat.FloatConverter.Process | libairspy/src/iqconverter_float_tuned.c:118-173 | the in-place call overwrites the block with exactly the functional outputs and leaves the array state equal to the functional next state |
| SampleDecode.Int16Sample | libairspy/src/airspy.c:239 | the 16-bit sample is congruent to `(raw − 2048)·8` modulo 2^16 |
| SampleDecode.FloatSample | libairspy/src/airspy.c:248 | the float sample times 4096 is exactly `raw − 2048` |
| SampleDecode.ScaleIsPowerOfTwo | libairspy/src/airspy.c:52-54 | the float scale `1/(1 << (15 − 3))` is exactly 2^−12, and 12-bit readings are those below 4096 |
| SampleDecode.Int16Exact | libairspy/src/airspy.c:239 | for 12-bit readings the fixed-point decode does not wrap: it is `(raw − 2048)·8`, in `[−16384, 16376]`, a multiple of 8 |
| SampleDecode.MidscaleIsZero | libairspy/src/airspy.c:239 | a reading of 2048 decodes to zero in both formats |
| SampleDecode.Int16RoundTrip | libairspy/src/airspy.c:239 | the fixed-point decode is a bijection between 12-bit readings and the multiples of 8 in `[−16384, 16376]` |
| SampleDecode.Int16Injective | libairspy/src/airspy.c:239 | distinct 12-bit readings decode to distinct fixed-point samples |
| SampleDecode.Int16WrapsAbove12Bits | libairspy/src/airspy.c:239 | a container value of 6144, outside the 12-bit range, wraps to −32768 |
| SampleDecode.FloatMatchesInt16 | libairspy/src/airspy.c:248 | for 12-bit readings the float decode is the fixed-point decode over 2^15, in `[−0.5, 0.5)` |
| SampleDecode.ConvertSamplesInt16 | libairspy/src/airspy.c:234-241 | each of the first `count` words is decoded to fixed point, and the reading can be recovered from each 12-bit one |
| SampleDecode.ConvertSamplesFloat | libairspy/src/airspy.c:243-250 | each of the first `count` words is decoded to float exactly, and 12-bit readings land in `[−0.5, 0.5)` |
| Unpack.UnpackGroupIsFields | libairspy/src/airspy.c:274-281 | sample `k` of a group is bits `12k` to `12k+11` of `w0 + w1·2^32 + w2·2^64`, so every sample is below 4096 |
| Unpack.Join | libairspy/src/airspy.c:274-281 | eight 12-bit samples have a 96-bit group whose fields are exactly those samples |
| Unpack.PackGroup | libairspy/src/airspy.c:274-281 | the packer's three words unpack to the samples packed |
| Unpack.UnpackThenPack | libairspy/src/airspy.c:274-281 | packing what the unpacker produced gives the same three words back |
| Unpack.UnpackSamples | libairspy/src/airspy.c:252-286 | over a buffer of `len` bytes the unpacker writes `8·(len/12)` samples, all below 4096, eight per whole 12-byte group in order |
| Unpack.PackAllRoundTrip | libairspy/src/airspy.c:260-284 | unpacking the packed form of any whole number of 12-bit sample groups gives the samples back |
| Unpack.PackedSampleCount | libairspy/src/airspy.c:307 | the count the conversion thread derives for packed transfers is at most 4/3 of the byte count |
| Unpack.PackedCountOverrunsUnpacker | libairspy/src/airspy.c:571-572 | for the 262144-byte transfer the derived count is 2 more than the unpacker writes, and is not a multiple of four |
| Unpack.UnpackedSampleCount | libairspy/src/airspy.c:260-284 | the unpacker's sample count is a multiple of 8 and at most 2/3 of the byte count |
| Unpack.PackedCountAgreement | libairspy/src/airspy.c:155 | for an even transfer size the derived count equals the unpacker's exactly when the size is a multiple of 12 |
| Streaming.TransferCallback | libairspy/src/airspy.c:360-389 | completions are ignored when not streaming or stopping; a failed transfer ends the stream without resubmission; otherwise the whole transfer buffer replaces the receive buffer only if no block is pending, the transfer is resubmitted and a failed resubmission ends the stream; the stop flag and the dropped counter never change |
| Streaming.DeliveredCount | libairspy/src/airspy.c:317-335 | the user is told half the raw count for the two IQ formats and the full count for the two real formats |
| Streaming.ConversionStep | libairspy/src/airspy.c:302-347 | a pass runs only while streaming without a pending stop; it clears `dataAvailable`, decodes the snapshot in the selected format (each IQ format through its converter, whose state advances to what that converter leaves), reports the format's sample count and requests a stop exactly when the user callback returns non-zero |
| Streaming.PrepareTransfers | libairspy/src/airspy.c:210-232 | submission succeeds exactly when transfers exist and every submission succeeds; missing transfers are `Other`, a failed submission `Libusb` |
| Streaming.CreateIoThreads | libairspy/src/airspy.c:436-474 | the start is `Busy` and changes nothing unless neither streaming nor stopping; otherwise `streaming` is raised before anything can fail, and a submission or thread failure is returned with it still raised |
| Streaming.KillIoThreads | libairspy/src/airspy.c:416-434 | teardown always succeeds; it is a no-op when not streaming, and otherwise lowers all three flags |
| Streaming.SetReceiverMode | libairspy/src/airspy.c:629-649 | the mode request succeeds exactly when the control transfer returns 0, and is `Libusb` otherwise |
| Streaming.StartRx | libairspy/src/airspy.c:651-662 | a start whose mode request fails changes nothing and returns `Libusb`; otherwise it is the stream creation |
| Streaming.StopRx | libairspy/src/airspy.c:664-675 | a stop always runs the teardown and returns the mode error in preference to the teardown result; from a consistent state it leaves the device neither streaming nor stopping |
| StreamingProps.StopThenStartNotBusy | libairspy/src/airspy.c:664-675 | after a stop from any consistent state, the next start is never refused as busy |
| StreamingProps.StuckStopStaysBusy | libairspy/src/airspy.c:418-441 | a stop pending without a stream is never cleared by a stop, so every later start is busy |
| StreamingProps.KillIdempotent | libairspy/src/airspy.c:416-434 | tearing down twice is the same as tearing down once |
| StreamingProps.FailedStartNeedsStop | libairspy/src/airspy.c:441-450 | a start from idle that fails leaves `streaming` raised, so a second start is busy until a stop |
| StreamingProps.PassesThreadConverterState | libairspy/src/airspy.c:316-331 | each IQ converter resumes from the state the previous pass left, so a second pass over the same buffer filters it again from the advanced state, for the float and the 16-bit converter alike |
| StreamingProps.StartSatisfiesLedger | libairspy/src/airspy.c:441-444 | a start that is not refused as busy begins a state satisfying the block-accounting invariant, counting a block still pending from the previous stream as already copied |
| StreamingProps.StaleBlockSurvivesRestart | libairspy/src/airspy.c:369-372 | a transfer that fails right after a block was copied leaves it pending; the following stop changes nothing and the next start succeeds with the old block already in the receive buffer |
| StreamingProps.ApplyKeepsLedger | libairspy/src/airspy.c:364-388 | one completion or one conversion pass preserves the invariant: stop only while streaming, accepted = copied + dropped, copied = consumed + pending, deliveries at most consumed + 1 |
| StreamingProps.ReplayKeepsLedger | libairspy/src/airspy.c:302-355 | over any interleaving of completions and conversion passes every accepted block is copied or dropped, no copied block is lost, and at most one delivery is not of a copied block |
| StreamingProps.SecondBlockDropped | libairspy/src/airspy.c:375-383 | two completions with no conversion pass between them drop the second block, keep the first in the receive buffer and leave the dropped-sample counter unchanged |
| SpiFlash.SpiflashWrite | libairspy/src/airspy.c:789-814 | an address above 0x0FFFFF is `InvalidParam` with nothing sent; otherwise the request carries `address >> 16` (below 16) and `address & 0xFFFF`, which recombine to the address, and a short transfer is `Libusb` |
| SpiFlash.RequestsDistinct | libairspy/src/airspy.c:798-803 | distinct accepted addresses produce distinct requests |

## Left out

- USB plumbing is left out: device open/close, the libusb context, transfer allocation, cancellation and freeing, the event loop thread, and every control-transfer wrapper other than receiver mode and SPI flash write. Their only logic is mapping a transfer result to a status; where a modelled step depends on one, the result is a parameter.
- Threads, the mutex and condition variable, and races on the volatile flags are left out. Each function is one atomic step. `StreamingProps.Sys` records with a flag whether the conversion thread has passed its first delivery and so waits to be woken. Liveness and wake-up timing are not modelled.
- Streaming.StopRx: from an inconsistent state (a stop pending but no stream) the stop changes nothing and the device stays stopping (`StreamingProps.StuckStopStaysBusy`); only the consistent case promises an idle device. Such states arise only from the races named on the next line.
- Streaming.Consistent: holds only when the steps run one at a time. libairspy can break it by two interleavings. A transfer can fail while the user callback runs: the completion handler lowers `streaming` (airspy.c:371), then a non-zero callback return raises `stop_requested` (airspy.c:344-346). The event loop can also lower `streaming` on an error without looking at `stop_requested` (airspy.c:409). Either way the device ends neither streaming nor idle, teardown does nothing, and every later start is busy (`StreamingProps.StuckStopStaysBusy`). So `StreamingProps.StopThenStartNotBusy` is a guarantee only for executions without these races.
- IEEE single-precision rounding is left out. Samples are `real`, so the model says nothing about the reference prefix of the benchmark test beyond its exact zeros.
- The 16-bit IQ converter is not part of this model. The conversion step takes one pass of it as a function parameter `iq16`, from the converter state the device holds to the state it leaves and the samples it writes. The content of that state is not modelled.
- The kernel coefficients are not part of this model. The kernel is a parameter; `HalfBandFolding` assumes only its symmetry and length.
- `TO_LE` byte swapping, aligned allocation, SSE macros and the error and board-name string tables are left out. The unpacker works on 32-bit words already in host order.
- Streaming.ConversionStep: models the shipped configuration, in which packing is compiled out. The packed path's count is modelled separately in `Unpack`.
- Streaming.ConversionStep: the user callback is reduced to its return value. The context and sample-type fields of the transfer record are not modelled.
- IqSpec.Process: carries 24 delay-line entries, where the C code copies 28. Entries 24 to 27 are never read before they are overwritten: odd ones are rewritten at positions 1 and 3 of the next call's first group, and even ones stay zero. Their carried content is stale array data, so the array refinement states the 28-entry copy (`FloatConverter.Carry`) while the functional state keeps only the live 24.
- IqConverterFloat.FloatConverter.Process: requires a block of 48 to 262144 samples. Below 48 the carry copies overlap, which is undefined for the copy routine the C code uses. Above 262144 the block does not fit the allocations. The functional `IqSpec.Process` accepts any length that is a multiple of four.
- IqSpec.Create: requires an odd tap count of at least 23. For an even count the extraction loop reads one tap past the kernel, and fewer than 23 taps leave fewer than the 12 pairs that processing reads.
- IqConverterFloat.FloatConverter.Create: requires at least 47 taps. For fewer, reset clears past the queue allocation (`IqLayout.ResetMatchesAllocation`).
- SampleDecode.Int16Sample: models `(raw − 2048) << 3` on a negative left operand as multiplication by 8. That shift is undefined in C; every compiler in use multiplies.

## Findings

| source | as written | input that shows it | evidently intended | confidence | as-written member | corrected member |
|---|---|---|---|---|---|---|
| libairspy/src/airspy.c:307 | the packed-format sample count is `buffer_size / 2 * 16 / 12`, but the unpacker writes `8 * (buffer_size / 12)` samples | `buffer_size = 262144`: the count is 174762, the unpacker writes 174760, and 174762 is not a multiple of four | the count of samples the unpacker actually writes, `8 * (buffer_size / 12)`; it matches only for sizes that are multiples of 12, as the commented-out 262140 at line 571 suggests | not executed (packing is compiled out in the shipped configuration) | Unpack.PackedCountOverrunsUnpacker | Unpack.PackedCountAgreement |

=== FILE: iq_converter.dfy ===
/** The float IQ converter as libairspy lays it out in C: a kernel array, a
    filter queue and a delay line sized for the largest block, processed in
    place group by group, and proved to compute exactly what `IqSpec.Process`
    describes. */
module IqConverterFloat {
  import opened IqSpec
  import opened IqLayout
  import IqProps

  /** The twelve kernel pairs written out, in the order the C code adds them. */
  function Fir12(b: seq<real>, q: seq<real>, j: nat): real
    requires Pairs <= |b| && j + History < |q|
  {
    b[0] * (q[j] + q[j + 46])
    + b[1] * (q[j + 2] + q[j + 44])
    + b[2] * (q[j + 4] + q[j + 42])
    + b[3] * (q[j + 6] + q[j + 40])
    + b[4] * (q[j + 8] + q[j + 38])
    + b[5] * (q[j + 10] + q[j + 36])
    + b[6] * (q[j + 12] + q[j + 34])
    + b[7] * (q[j + 14] + q[j + 32])
    + b[8] * (q[j + 16] + q[j + 30])
    + b[9] * (q[j + 18] + q[j + 28])
    + b[10] * (q[j + 20] + q[j + 26])
    + b[11] * (q[j + 22] + q[j + 24])
  }

  lemma FirUnrolled(b: seq<real>, q: seq<real>, j: nat)
    requires Pairs <= |b| && j + History < |q|
    ensures FirAt(b, q, j) == Fir12(b, q, j)
  {
    assert PairSum(b, q, j, 1) == b[0] * (q[j] + q[j + 46]);
    assert PairSum(b, q, j, 2) == PairSum(b, q, j, 1) + b[1] * (q[j + 2] + q[j + 44]);
    assert PairSum(b, q, j, 3) == PairSum(b, q, j, 2) + b[2] * (q[j + 4] + q[j + 42]);
    assert PairSum(b, q, j, 4) == PairSum(b, q, j, 3) + b[3] * (q[j + 6] + q[j + 40]);
    assert PairSum(b, q, j, 5) == PairSum(b, q, j, 4) + b[4] * (q[j + 8] + q[j + 38]);
    assert PairSum(b, q, j, 6) == PairSum(b, q, j, 5) + b[5] * (q[j + 10] + q[j + 36]);
    assert PairSum(b, q, j, 7) == PairSum(b, q, j, 6) + b[6] * (q[j + 12] + q[j + 34]);
    assert PairSum(b, q, j, 8) == PairSum(b, q, j, 7) + b[7] * (q[j + 14] + q[j + 32]);
    assert PairSum(b, q, j, 9) == PairSum(b, q, j, 8) + b[8] * (q[j + 16] + q[j + 30]);
    assert PairSum(b, q, j, 10) == PairSum(b, q, j, 9) + b[9] * (q[j + 18] + q[j + 28]);
    assert PairSum(b, q, j, 11) == PairSum(b, q, j, 10) + b[10] * (q[j + 20] + q[j + 26]);
    assert PairSum(b, q, j, 12) == PairSum(b, q, j, 11) + b[11] * (q[j + 22] + q[j + 24]);
  }

  /** What processing block position `j` does to the DC estimate, the queue
      and the delay line. */
  lemma PositionFacts(c: Converter, x: seq<real>, j: nat)
    requires Shaped(c) && j < |x|
    ensures var v := x[j] - AvgAt(x, c.avg, j);
            && Removed(x, c.avg)[j] == v
            && AvgAt(x, c.avg, j + 1) == AvgAt(x, c.avg, j) + Scale * v
            && Queue(c, Removed(x, c.avg))[History + j] == (if j % 4 == 0 then -v else v)
            && DelayLine(c, Removed(x, c.avg))[Lag + j] == QuadOf(v, j, c.kernel.hbc)
  {
  }

  /** Output `j` of a call, with the in-phase sum written out. */
  lemma OutputFacts(c: Converter, x: seq<real>, j: nat)
    requires Shaped(c) && |x| % 4 == 0 && j < |x|
    ensures var q := Queue(c, Removed(x, c.avg));
            Process(c, x).out[j] == if j % 2 == 0 then Fir12(c.kernel.fir, q, j)
                                    else DelayLine(c, Removed(x, c.avg))[j]
  {
    var q := Queue(c, Removed(x, c.avg));
    if j % 2 == 0 {
      FirUnrolled(c.kernel.fir, q, j);
    }
  }

  /** The sequences `q`, `dl` and `out` are the queue, delay line and
      output of one call on `x` from state `c`. */
  ghost predicate Traces(c: Converter, x: seq<real>, q: seq<real>, dl: seq<real>, out: seq<real>) {
    && Shaped(c) && |x| % 4 == 0
    && q == Queue(c, Removed(x, c.avg)) && dl == DelayLine(c, Removed(x, c.avg))
    && out == IqSpec.Process(c, x).out
  }

  /** The DC estimate in force before each block position, and after the last. */
  ghost function Avgs(x: seq<real>, avg: real): (s: seq<real>)
    ensures |s| == |x| + 1 && forall p :: 0 <= p <= |x| ==> s[p] == AvgAt(x, avg, p)
  {
    seq(|x| + 1, p requires 0 <= p <= |x| => AvgAt(x, avg, p))
  }

  /** Lengths of the ghost sequences one call on `x` is checked against. */
  ghost predicate Sized(x: seq<real>, avgs: seq<real>, q: seq<real>, dl: seq<real>, out: seq<real>) {
    |avgs| == |x| + 1 && |q| == History + |x| && |dl| == Lag + |x| && |out| == |x|
  }

  /** What block position `p`, of phase `r` and DC-removed value `v`, owes:
      the estimate after it, the queue and delay-line entries it produces
      (`h` is the centre tap), and its output. */
  ghost predicate Owes(x: seq<real>, avgs: seq<real>, q: seq<real>, dl: seq<real>, out: seq<real>,
                       fir: seq<real>, h: real, p: nat, r: nat, v: real)
  {
    && Sized(x, avgs, q, dl, out) && p < |x| && |fir| >= Pairs
    && v == x[p] - avgs[p]
    && avgs[p + 1] == avgs[p] + Scale * v
    && q[History + p] == (if r == 0 then -v else v)
    && dl[Lag + p] == (if r == 1 then -(v * h) else if r == 3 then v * h else 0.0)
    && out[p] == (if r % 2 == 0 then Fir12(fir, q, p) else dl[p])
    && p % 2 == r % 2 && (p + Lag) % 2 == r % 2
  }

  /** Every block position owes what `Owes` says, phase by phase. */
  lemma StepFacts(c: Converter, x: seq<real>, avgs: seq<real>, q: seq<real>, dl: seq<real>, out: seq<real>,
                  p: nat, r: nat)
    requires Traces(c, x, q, dl, out) && avgs == Avgs(x, c.avg) && p < |x| && p % 4 == r
    ensures Owes(x, avgs, q, dl, out, c.kernel.fir, c.kernel.hbc, p, r, x[p] - avgs[p])
  {
    PositionFacts(c, x, p);
    OutputFacts(c, x, p);
    IqProps.ParityOfMod4(p);
    IqProps.ModShift(p, Lag);
  }

  class FloatConverter {
    /** Number of retained kernel taps. */
    var len: int
    /** Centre tap of the half-band kernel. */
    var hbc: real
    var firKernel: array<real>
    var firQueue: array<real>
    var delayLine: array<real>
    /** Running DC estimate. */
    var avg: real
    var firIndex: int
    var delayIndex: int

    ghost predicate Valid()
      reads this, firKernel, firQueue, delayLine
    {
      && firKernel != firQueue && firKernel != delayLine && firQueue != delayLine
      && firKernel.Length == len && len >= Pairs
      && firQueue.Length >= ResetQueueLen
      && delayLine.Length == DelayAlloc
      && forall k :: 0 <= k < delayLine.Length && k % 2 == 0 ==> delayLine[k] == 0.0
    }

    /** The state the functional model sees. */
    ghost function Model(): Converter
      reads this, firKernel, firQueue, delayLine
      requires Valid()
    {
      Converter(Kernel(firKernel[..], hbc), avg, firIndex, delayIndex, firQueue[..History], delayLine[..Lag])
    }

    /** Keeps the even taps and the centre tap of a `n`-tap half-band kernel,
        allocates the queue and delay line, and resets them. */
    constructor Create(hb: seq<real>, n: int)
      requires |hb| == n && n % 2 == 1 && n >= Taps
      ensures Valid() && Model() == IqSpec.Create(hb, n)
      ensures firQueue.Length == QueueAlloc(n)
      ensures fresh(firKernel) && fresh(firQueue) && fresh(delayLine)
    {
      len := n / 2 + 1;
      hbc := hb[n / 2];
      firKernel := new real[n / 2 + 1];
      firQueue := new real[QueueAlloc(n)];
      delayLine := new real[DelayAlloc];
      new;
      Clear();
      firIndex := n;
      var i, j := 0, 0;
      while i < len
        modifies firKernel
        invariant 0 <= i <= len && j == 2 * i
        invariant forall k :: 0 <= k < i ==> firKernel[k] == hb[2 * k]
      {
        firKernel[i] := hb[j];
        i, j := i + 1, j + 2;
      }
      assert firQueue[..History] == Zeros(History);
      assert delayLine[..Lag] == Zeros(Lag);
    }

    /** Resets a converter: its state becomes the functional reset of the
        state it had, and `ResetQueueLen` queue entries and the whole delay
        line are zero. */
    method Reset()
      requires Valid()
      modifies this`avg, this`firIndex, this`delayIndex, firQueue, delayLine
      ensures Valid() && Model() == IqSpec.Reset(old(Model()))
      ensures firKernel == old(firKernel) && firQueue == old(firQueue) && delayLine == old(delayLine)
      ensures forall k :: 0 <= k < ResetQueueLen ==> firQueue[k] == 0.0
      ensures forall k :: 0 <= k < delayLine.Length ==> delayLine[k] == 0.0
    {
      Clear();
      assert firQueue[..History] == Zeros(History);
      assert delayLine[..Lag] == Zeros(Lag);
    }

    /** Zeroes the DC estimate, both counters, `ResetQueueLen` queue entries
        and the whole delay line; used by `Reset` and, before the kernel is
        filled in, by `Create`. */
    method Clear()
      requires firQueue.Length >= ResetQueueLen && delayLine.Length == DelayAlloc && firQueue != delayLine
      modifies this`avg, this`firIndex, this`delayIndex, firQueue, delayLine
      ensures len == old(len) && hbc == old(hbc)
      ensures firKernel == old(firKernel) && firQueue == old(firQueue) && delayLine == old(delayLine)
      ensures firKernel != firQueue && firKernel != delayLine ==> firKernel[..] == old(firKernel[..])
      ensures avg == 0.0 && firIndex == 0 && delayIndex == 0
      ensures forall k :: 0 <= k < ResetQueueLen ==> firQueue[k] == 0.0
      ensures forall k :: 0 <= k < delayLine.Length ==> delayLine[k] == 0.0
    {
      avg := 0.0;
      firIndex := 0;
      delayIndex := 0;
      var k := 0;
      while k < ResetDelayLen
        modifies delayLine
        invariant 0 <= k <= ResetDelayLen
        invariant forall t :: 0 <= t < k ==> delayLine[t] == 0.0
      {
        delayLine[k] := 0.0;
        k := k + 1;
      }
      k := 0;
      while k < ResetQueueLen
        modifies firQueue
        invariant 0 <= k <= ResetQueueLen
        invariant forall t :: 0 <= t < k ==> firQueue[t] == 0.0
      {
        firQueue[k] := 0.0;
        k := k + 1;
      }
    }

    /** The first `Pairs` kernel taps are those of `fir`. */
    ghost predicate KernelIs(fir: seq<real>)
      reads this, firKernel
    {
      firKernel.Length >= Pairs && |fir| >= Pairs && forall k :: 0 <= k < Pairs ==> firKernel[k] == fir[k]
    }

    /** The in-phase output for the queue window starting at `j`: the twelve
        symmetric pairs weighted by the retained kernel taps.  `q` names the
        queue contents the window holds. */
    method InPhase(j: int, ghost fir: seq<real>, ghost q: seq<real>) returns (r: real)
      requires KernelIs(fir) && 0 <= j && j + History < |q| && j + History < firQueue.Length
      requires forall t :: j <= t <= j + History ==> firQueue[t] == q[t]
      ensures r == Fir12(fir, q, j)
    {
      r := firKernel[0] * (firQueue[j] + firQueue[j+46])
         + firKernel[1] * (firQueue[j+2] + firQueue[j+44])
         + firKernel[2] * (firQueue[j+4] + firQueue[j+42])
         + firKernel[3] * (firQueue[j+6] + firQueue[j+40])
         + firKernel[4] * (firQueue[j+8] + firQueue[j+38])
         + firKernel[5] * (firQueue[j+10] + firQueue[j+36])
         + firKernel[6] * (firQueue[j+12] + firQueue[j+34])
         + firKernel[7] * (firQueue[j+14] + firQueue[j+32])
         + firKernel[8] * (firQueue[j+16] + firQueue[j+30])
         + firKernel[9] * (firQueue[j+18] + firQueue[j+28])
         + firKernel[10] * (firQueue[j+20] + firQueue[j+26])
         + firKernel[11] * (firQueue[j+22] + firQueue[j+24]);
    }

    /** Copies the block in behind the `History` queue entries already there. */
    method CopyIn(samples: array<real>)
      requires samples != firQueue && samples.Length + History <= firQueue.Length
      modifies firQueue
      ensures forall t :: 0 <= t < History ==> firQueue[t] == old(firQueue[t])
      ensures forall t :: 0 <= t < samples.Length ==> firQueue[History + t] == samples[t]
    {
      var j := 0;
      while j < samples.Length
        invariant 0 <= j <= samples.Length
        invariant forall t :: 0 <= t < History ==> firQueue[t] == old(firQueue[t])
        invariant forall t :: 0 <= t < j ==> firQueue[History + t] == samples[t]
      {
        firQueue[History + j] := samples[j];
        j := j + 1;
      }
    }

    /** The arrays one call works on are distinct and large enough for a
        block of `n` samples. */
    ghost predicate Room(samples: array<real>, n: int)
      reads this
    {
      && samples != firQueue && samples != delayLine && firQueue != delayLine
      && firKernel != firQueue && firKernel != delayLine && firKernel != samples
      && firKernel.Length >= Pairs && samples.Length == n
      && firQueue.Length >= ResetQueueLen && delayLine.Length == DelayAlloc
      && 0 <= n <= MaxBlock
    }

    /** The arrays after the first `p` block positions have been processed,
        with `a` the DC estimate in force. */
    ghost predicate Reached(samples: array<real>, x: seq<real>, avgs: seq<real>, q: seq<real>, dl: seq<real>,
                            out: seq<real>, p: int, a: real)
      reads this, firQueue, delayLine, samples
      requires Room(samples, |x|) && Sized(x, avgs, q, dl, out)
    {
      && 0 <= p <= |x|
      && a == avgs[p]
      && (forall t :: 0 <= t < History + p ==> firQueue[t] == q[t])
      && (forall t :: p <= t < |x| ==> firQueue[History + t] == x[t])
      && (forall t :: 0 <= t < p ==> samples[t] == out[t])
      && (forall t :: 0 <= t < Lag + p ==> delayLine[t] == dl[t])
      && (forall t :: 0 <= t < delayLine.Length && t % 2 == 0 ==> delayLine[t] == 0.0)
    }

    /** Position `p = i` of a group: remove DC, negate, in-phase output. */
    method Step0(samples: array<real>, ghost x: seq<real>, ghost avgs: seq<real>, ghost q: seq<real>,
                 ghost dl: seq<real>, ghost out: seq<real>, ghost fir: seq<real>, ghost h: real,
                 i: int, ghost v: real, a: real) returns (a': real)
      requires Room(samples, |x|) && Sized(x, avgs, q, dl, out) && KernelIs(fir)
      requires Reached(samples, x, avgs, q, dl, out, i, a) && Owes(x, avgs, q, dl, out, fir, h, i, 0, v)
      modifies firQueue, samples
      ensures Reached(samples, x, avgs, q, dl, out, i + 1, a')
    {
      var p := i;
      var w := firQueue[p + History] - a;
      assert w == v;
      a' := a + Scale * w;
      firQueue[p + History] := -w;
      assert forall t :: 0 <= t <= p + History ==> firQueue[t] == q[t];
      samples[p] := InPhase(p, fir, q);
      assert forall t :: 0 <= t < p + 1 ==> samples[t] == out[t];
    }

    /** Position `p = i + 1`: quadrature output, remove DC, delay the negated value. */
    method Step1(samples: array<real>, ghost x: seq<real>, ghost avgs: seq<real>, ghost q: seq<real>,
                 ghost dl: seq<real>, ghost out: seq<real>, ghost fir: seq<real>, ghost h: real,
                 i: int, ghost v: real, a: real) returns (a': real)
      requires Room(samples, |x|) && Sized(x, avgs, q, dl, out) && hbc == h
      requires Reached(samples, x, avgs, q, dl, out, i + 1, a) && Owes(x, avgs, q, dl, out, fir, h, i + 1, 1, v)
      modifies firQueue, delayLine, samples
      ensures Reached(samples, x, avgs, q, dl, out, i + 2, a')
    {
      var p := i + 1;
      samples[p] := delayLine[p];
      assert samples[p] == out[p];
      var w := firQueue[p + History] - a;
      assert w == v;
      a' := a + Scale * w;
      firQueue[p + History] := w;
      IqProps.MulCongr(w, hbc, v, h);
      delayLine[p + Lag] := -(w * hbc);
      assert forall t :: 0 <= t < History + p + 1 ==> firQueue[t] == q[t];
      assert forall t :: 0 <= t < p + 1 ==> samples[t] == out[t];
      assert forall t :: 0 <= t < Lag + p + 1 ==> delayLine[t] == dl[t];
    }

    /** Position `p = i + 2`: remove DC, in-phase output. */
    method Step2(samples: array<real>, ghost x: seq<real>, ghost avgs: seq<real>, ghost q: seq<real>,
                 ghost dl: seq<real>, ghost out: seq<real>, ghost fir: seq<real>, ghost h: real,
                 i: int, ghost v: real, a: real) returns (a': real)
      requires Room(samples, |x|) && Sized(x, avgs, q, dl, out) && KernelIs(fir)
      requires Reached(samples, x, avgs, q, dl, out, i + 2, a) && Owes(x, avgs, q, dl, out, fir, h, i + 2, 2, v)
      modifies firQueue, samples
      ensures Reached(samples, x, avgs, q, dl, out, i + 3, a')
    {
      var p := i + 2;
      var w := firQueue[p + History] - a;
      assert w == v;
      a' := a + Scale * w;
      firQueue[p + History] := w;
      assert forall t :: 0 <= t <= p + History ==> firQueue[t] == q[t];
      samples[p] := InPhase(p, fir, q);
      assert forall t :: 0 <= t < p + 1 ==> samples[t] == out[t];
    }

    /** Position `p = i + 3`: quadrature output, remove DC, delay the value. */
    method Step3(samples: array<real>, ghost x: seq<real>, ghost avgs: seq<real>, ghost q: seq<real>,
                 ghost dl: seq<real>, ghost out: seq<real>, ghost fir: seq<real>, ghost h: real,
                 i: int, ghost v: real, a: real) returns (a': real)
      requires Room(samples, |x|) && Sized(x, avgs, q, dl, out) && hbc == h
      requires Reached(samples, x, avgs, q, dl, out, i + 3, a) && Owes(x, avgs, q, dl, out, fir, h, i + 3, 3, v)
      modifies firQueue, delayLine, samples
      ensures Reached(samples, x, avgs, q, dl, out, i + 4, a')
    {
      var p := i + 3;
      samples[p] := delayLine[p];
      assert samples[p] == out[p];
      var w := firQueue[p + History] - a;
      assert w == v;
      a' := a + Scale * w;
      firQueue[p + History] := w;
      IqProps.MulCongr(w, hbc, v, h);
      delayLine[p + Lag] := w * hbc;
      assert forall t :: 0 <= t < History + p + 1 ==> firQueue[t] == q[t];
      assert forall t :: 0 <= t < p + 1 ==> samples[t] == out[t];
      assert forall t :: 0 <= t < Lag + p + 1 ==> delayLine[t] == dl[t];
    }

    /** One group of four positions starting at `i`. */
    method Group(samples: array<real>, ghost c: Converter, ghost x: seq<real>, ghost avgs: seq<real>,
                 ghost q: seq<real>, ghost dl: seq<real>, ghost out: seq<real>, i: int, ghost g: int, a: real)
      returns (a': real)
      requires Room(samples, |x|) && Traces(c, x, q, dl, out) && avgs == Avgs(x, c.avg)
      requires KernelIs(c.kernel.fir) && hbc == c.kernel.hbc
      requires i == 4 * g && i + 4 <= |x| && Reached(samples, x, avgs, q, dl, out, i, a)
      modifies firQueue, delayLine, samples
      ensures Reached(samples, x, avgs, q, dl, out, i + 4, a')
    {
      ghost var fir, h := c.kernel.fir, c.kernel.hbc;
      IqProps.Mod4Unique(i, g, 0);
      IqProps.Mod4Unique(i + 1, g, 1);
      IqProps.Mod4Unique(i + 2, g, 2);
      IqProps.Mod4Unique(i + 3, g, 3);
      StepFacts(c, x, avgs, q, dl, out, i, 0);
      StepFacts(c, x, avgs, q, dl, out, i + 1, 1);
      StepFacts(c, x, avgs, q, dl, out, i + 2, 2);
      StepFacts(c, x, avgs, q, dl, out, i + 3, 3);
      a' := Step0(samples, x, avgs, q, dl, out, fir, h, i, x[i] - avgs[i], a);
      a' := Step1(samples, x, avgs, q, dl, out, fir, h, i, x[i + 1] - avgs[i + 1], a');
      a' := Step2(samples, x, avgs, q, dl, out, fir, h, i, x[i + 2] - avgs[i + 2], a');
      a' := Step3(samples, x, avgs, q, dl, out, fir, h, i, x[i + 3] - avgs[i + 3], a');
    }

    /** The group loop: DC removal, sign changes, in-phase sums and quadrature
        delays for the block `x` already copied into the queue, starting from
        converter state `c`.  Returns the final DC estimate. */
    method Filter(samples: array<real>, ghost c: Converter, ghost x: seq<real>) returns (a: real)
      requires Room(samples, |x|) && Shaped(c) && |x| % 4 == 0
      requires firKernel[..] == c.kernel.fir && hbc == c.kernel.hbc && avg == c.avg
      requires forall t :: 0 <= t < History ==> firQueue[t] == c.history[t]
      requires forall t :: 0 <= t < |x| ==> firQueue[History + t] == x[t]
      requires forall t :: 0 <= t < Lag ==> delayLine[t] == c.pending[t]
      requires forall t :: 0 <= t < delayLine.Length && t % 2 == 0 ==> delayLine[t] == 0.0
      modifies firQueue, delayLine, samples
      ensures a == AvgAt(x, c.avg, |x|)
      ensures forall t :: 0 <= t < History + |x| ==> firQueue[t] == Queue(c, Removed(x, c.avg))[t]
      ensures forall t :: 0 <= t < |x| ==> samples[t] == IqSpec.Process(c, x).out[t]
      ensures forall t :: 0 <= t < Lag + |x| ==> delayLine[t] == DelayLine(c, Removed(x, c.avg))[t]
      ensures forall t :: 0 <= t < delayLine.Length && t % 2 == 0 ==> delayLine[t] == 0.0
    {
      var n := samples.Length;
      ghost var q := Queue(c, Removed(x, c.avg));
      ghost var dl := DelayLine(c, Removed(x, c.avg));
      ghost var out := IqSpec.Process(c, x).out;
      ghost var avgs := Avgs(x, c.avg);
      a := avg;
      var groups := n / 4;
      assert n == 4 * groups;
      var i, g := 0, 0;
      assert KernelIs(c.kernel.fir);
      assert Sized(x, avgs, q, dl, out);
      assert forall t :: 0 <= t < History ==> q[t] == c.history[t];
      assert forall t :: 0 <= t < Lag ==> dl[t] == c.pending[t];
      assert Reached(samples, x, avgs, q, dl, out, 0, a);
      while g < groups
        invariant KernelIs(c.kernel.fir)
        invariant 0 <= g <= groups && i == 4 * g
        invariant Reached(samples, x, avgs, q, dl, out, i, a)
      {
        a := Group(samples, c, x, avgs, q, dl, out, i, g, a);
        i, g := i + 4, g + 1;
      }
      assert i == n;
    }

    /** Moves the last `History` queue entries and the last `DelayCarry`
        delay-line entries of a block of `n` samples to the front. */
    method Carry(n: int)
      requires MinBlock <= n <= MaxBlock && n % 4 == 0 && firQueue != delayLine
      requires firQueue.Length >= ResetQueueLen && delayLine.Length == DelayAlloc
      requires forall t :: 0 <= t < delayLine.Length && t % 2 == 0 ==> delayLine[t] == 0.0
      modifies firQueue, delayLine
      ensures forall t :: 0 <= t < History ==> firQueue[t] == old(firQueue[n + t])
      ensures forall t :: 0 <= t < DelayCarry ==> delayLine[t] == old(delayLine[n + t])
      ensures forall t :: 0 <= t < delayLine.Length && t % 2 == 0 ==> delayLine[t] == 0.0
    {
      var k := 0;
      while k < History
        modifies firQueue
        invariant 0 <= k <= History
        invariant forall t :: 0 <= t < k ==> firQueue[t] == old(firQueue[n + t])
        invariant forall t :: k <= t < firQueue.Length ==> firQueue[t] == old(firQueue[t])
      {
        firQueue[k] := firQueue[n + k];
        k := k + 1;
      }
      k := 0;
      while k < DelayCarry
        modifies delayLine
        invariant 0 <= k <= DelayCarry
        invariant forall t :: 0 <= t < k ==> delayLine[t] == old(delayLine[n + t])
        invariant forall t :: k <= t < delayLine.Length ==> delayLine[t] == old(delayLine[t])
        invariant forall t :: 0 <= t < delayLine.Length && t % 2 == 0 ==> delayLine[t] == 0.0
      {
        IqProps.ModShift(k, n);
        delayLine[k] := delayLine[n + k];
        k := k + 1;
      }
    }

    /** One call on `samples`, overwritten with the interleaved I/Q output. */
    method Process(samples: array<real>)
      requires Valid() && samples != firQueue && samples != delayLine && samples != firKernel
      requires samples.Length % 4 == 0 && MinBlock <= samples.Length <= MaxBlock
      modifies this`avg, firQueue, delayLine, samples
      ensures Valid()
      ensures samples[..] == IqSpec.Process(old(Model()), old(samples[..])).out
      ensures Model() == IqSpec.Process(old(Model()), old(samples[..])).next
    {
      var n := samples.Length;
      ghost var x := samples[..];
      ghost var c := Model();
      CopyIn(samples);
      var a := Filter(samples, c, x);
      ghost var q := firQueue[..History + n];
      ghost var dl := delayLine[..Lag + n];
      Carry(n);
      avg := a;
      assert q == Queue(c, Removed(x, c.avg));
      assert dl == DelayLine(c, Removed(x, c.avg));
      assert samples[..] == IqSpec.Process(c, x).out;
      assert firQueue[..History] == q[n..];
      assert delayLine[..Lag] == dl[n..];
    }
  }

  /** A converter is created, filters one block, is reset and filters a
      second block: each block comes out as a freshly created converter would
      filter it, so a reset forgets everything but the kernel. */
  method FilterAfterReset(hb: seq<real>, a: array<real>, b: array<real>)
    requires |hb| % 2 == 1 && |hb| >= Taps && a != b
    requires a.Length % 4 == 0 && MinBlock <= a.Length <= MaxBlock
    requires b.Length % 4 == 0 && MinBlock <= b.Length <= MaxBlock
    modifies a, b
    ensures a[..] == IqSpec.Process(IqSpec.Create(hb, |hb|), old(a[..])).out
    ensures b[..] == IqSpec.Process(IqSpec.Create(hb, |hb|), old(b[..])).out
  {
    var cv := new FloatConverter.Create(hb, |hb|);
    cv.Process(a);
    cv.Reset();
    ghost var m := cv.Model();
    ghost var x := b[..];
    cv.Process(b);
    IqProps.FreshEqualsReset(hb, |hb|, m, [x]);
    assert [x][1..] == [];
  }
}

=== FILE: iq_layout.dfy ===
/** Allocation sizes of the float converter's buffers and the arithmetic
    facts that keep one call inside them. */
module IqLayout {
  import opened IqSpec

  /** Largest block the queue and delay line are sized for. */
  const MaxBlock: nat := 262144
  /** Length of the half-band kernel the buffer sizes were written for. */
  const Taps: nat := 47
  /** Smallest block length, a multiple of four, whose carry copies do not overlap. */
  const MinBlock: nat := 48
  /** Delay-line allocation, in samples. */
  const DelayAlloc: nat := MaxBlock + Lag + 4
  /** Queue entries zeroed by a reset (the kernel length is written in as 47). */
  const ResetQueueLen: nat := MaxBlock + 47 - 1
  /** Delay-line entries zeroed by a reset. */
  const ResetDelayLen: nat := MaxBlock + 24 + 4

  /** Queue allocation, in samples, for a kernel of `taps` taps. */
  function QueueAlloc(taps: int): int {
    MaxBlock + taps - 1
  }

  /** The reset clears exactly the queue allocation only for a 47-tap kernel;
      for a shorter kernel it writes past the allocation, for a longer one it
      leaves the tail of the queue alone.  The delay line is always cleared
      exactly. */
  lemma ResetMatchesAllocation(taps: int)
    ensures ResetQueueLen == QueueAlloc(taps) <==> taps == Taps
    ensures ResetQueueLen > QueueAlloc(taps) <==> taps < Taps
    ensures ResetDelayLen == DelayAlloc
  {
  }

  /** Two copies of `count` entries, to `dst` and from `src`, touch disjoint ranges. */
  predicate Disjoint(dst: int, src: int, count: int) {
    dst + count <= src || src + count <= dst
  }

  /** The two carry copies (`History` queue entries and `DelayCarry` delay
      entries from offset `n` to offset 0) are disjoint exactly when the
      block holds at least `MinBlock` samples. */
  lemma CarryCopiesDisjoint(n: int)
    requires n >= 0 && n % 4 == 0
    ensures Disjoint(0, n, History) && Disjoint(0, n, DelayCarry) <==> n >= MinBlock
  {
  }

  /** The highest queue index one call touches is `n + History - 1` (the last
      block entry, also the last carry source), the highest delay-line index
      `n + DelayCarry - 1` (the last carry source).  Both fit the allocations
      of a 47-tap converter exactly when the block is at most `MaxBlock`. */
  lemma TouchedIndicesFit(n: int)
    requires n > 0 && n % 4 == 0
    ensures (n + History - 1 < QueueAlloc(Taps) && n + DelayCarry - 1 < DelayAlloc) <==> n <= MaxBlock
  {
  }
}

=== FILE: iq_props.dfy ===
/** Properties of the functional IQ converter model: splitting a block over
    two calls changes nothing, zero input stays zero, a reset converter and a
    fresh one agree, the quadrature branch stays aligned with the centre of
    the in-phase window, and the folded kernel pairs compute the even-tap
    convolution of a symmetric half-band kernel. */
module IqProps {
  import opened IqSpec

  // ------------------------------------------------------------ DC removal

  lemma {:induction false} AvgPrefix(x: seq<real>, y: seq<real>, a: real, j: nat)
    requires j <= |x|
    ensures AvgAt(x + y, a, j) == AvgAt(x, a, j)
    decreases j
  {
    if j > 0 {
      AvgPrefix(x, y, a, j - 1);
      assert (x + y)[j - 1] == x[j - 1];
    }
  }

  /** The DC estimate after `x` is the starting estimate for `y`. */
  lemma {:induction false} AvgSplit(x: seq<real>, y: seq<real>, a: real, j: nat)
    requires j <= |y|
    ensures AvgAt(x + y, a, |x| + j) == AvgAt(y, AvgAt(x, a, |x|), j)
    decreases j
  {
    if j == 0 {
      AvgPrefix(x, y, a, |x|);
    } else {
      AvgSplit(x, y, a, j - 1);
      assert (x + y)[|x| + j - 1] == y[j - 1];
    }
  }

  lemma RemovedSplit(x: seq<real>, y: seq<real>, a: real)
    ensures Removed(x + y, a) == Removed(x, a) + Removed(y, AvgAt(x, a, |x|))
  {
    var l := Removed(x + y, a);
    var r := Removed(x, a) + Removed(y, AvgAt(x, a, |x|));
    forall j | 0 <= j < |l|
      ensures l[j] == r[j]
    {
      if j < |x| {
        AvgPrefix(x, y, a, j);
      } else {
        AvgSplit(x, y, a, j - |x|);
      }
    }
  }

  /** A block equal to the current estimate leaves nothing after DC removal
      and does not move the estimate. */
  lemma {:induction false} DcSteady(x: seq<real>, a: real, j: nat)
    requires forall i :: 0 <= i < |x| ==> x[i] == a
    requires j <= |x|
    ensures AvgAt(x, a, j) == a
    ensures forall i :: 0 <= i < j ==> Removed(x, a)[i] == 0.0
    decreases j
  {
    if j > 0 {
      DcSteady(x, a, j - 1);
    }
  }

  // ------------------------------------------------- splitting a block in two

  lemma ModShift(a: int, b: int)
    requires b % 4 == 0
    ensures (a - b) % 4 == a % 4 && (a + b) % 4 == a % 4
    ensures (a - b) % 2 == a % 2 && (a + b) % 2 == a % 2
  {
    var m := b / 4;
    var qa := a / 4;
    var ra := a % 4;
    Mod4Unique(a + b, qa + m, ra);
    Mod4Unique(a - b, qa - m, ra);
    Mod2Unique(a, 2 * qa + ra / 2, ra % 2);
    Mod2Unique(a + b, 2 * (qa + m) + ra / 2, ra % 2);
    Mod2Unique(a - b, 2 * (qa - m) + ra / 2, ra % 2);
  }

  lemma Mod4Unique(x: int, q: int, r: int)
    requires x == 4 * q + r && 0 <= r < 4
    ensures x % 4 == r
  {
  }

  lemma Mod2Unique(x: int, q: int, r: int)
    requires x == 2 * q + r && 0 <= r < 2
    ensures x % 2 == r
  {
  }

  lemma ParityOfMod4(x: int)
    ensures x % 2 == (x % 4) % 2
  {
    var r := x % 4;
    Mod2Unique(x, 2 * (x / 4) + r / 2, r % 2);
  }

  lemma SignedSplit(d1: seq<real>, d2: seq<real>)
    requires |d1| % 4 == 0
    ensures Signed(d1 + d2) == Signed(d1) + Signed(d2)
  {
    var l := Signed(d1 + d2);
    var r := Signed(d1) + Signed(d2);
    forall j | 0 <= j < |l|
      ensures l[j] == r[j]
    {
      if j >= |d1| {
        ModShift(j, |d1|);
      }
    }
  }

  lemma QuadSplit(d1: seq<real>, d2: seq<real>, hbc: real)
    requires |d1| % 4 == 0
    ensures Quad(d1 + d2, hbc) == Quad(d1, hbc) + Quad(d2, hbc)
  {
    var l := Quad(d1 + d2, hbc);
    var r := Quad(d1, hbc) + Quad(d2, hbc);
    forall j | 0 <= j < |l|
      ensures l[j] == r[j]
    {
      if j >= |d1| {
        ModShift(j, |d1|);
      }
    }
  }

  /** The kernel pairs see only the window `q[j..j + History]`. */
  lemma {:induction false} PairSumFrame(fir: seq<real>, q1: seq<real>, j1: nat, q2: seq<real>, j2: nat, k: nat)
    requires k <= Pairs <= |fir| && j1 + History < |q1| && j2 + History < |q2|
    requires q1[j1..j1 + History + 1] == q2[j2..j2 + History + 1]
    ensures PairSum(fir, q1, j1, k) == PairSum(fir, q2, j2, k)
    decreases k
  {
    if k > 0 {
      PairSumFrame(fir, q1, j1, q2, j2, k - 1);
      var t := 2 * (k - 1);
      assert q1[j1 + t] == q1[j1..j1 + History + 1][t] == q2[j2 + t];
      assert q1[j1 + (History - t)] == q1[j1..j1 + History + 1][History - t] == q2[j2 + (History - t)];
    }
  }

  lemma SuffixOfConcat(a: seq<real>, b: seq<real>, k: nat)
    requires k <= |a|
    ensures (a + b)[k..] == a[k..] + b
  {
  }

  lemma ConcatAssoc(a: seq<real>, b: seq<real>, c: seq<real>)
    ensures a + (b + c) == (a + b) + c
  {
  }

  /** The queue and delay line of a call on `x + y` are those of the call on
      `x` extended by the quadruples of `y`. */
  lemma SplitLines(c: Converter, x: seq<real>, y: seq<real>)
    requires Shaped(c) && |x| % 4 == 0
    ensures Queue(c, Removed(x + y, c.avg)) == Queue(c, Removed(x, c.avg)) + Signed(Removed(y, AvgAt(x, c.avg, |x|)))
    ensures DelayLine(c, Removed(x + y, c.avg))
         == DelayLine(c, Removed(x, c.avg)) + Quad(Removed(y, AvgAt(x, c.avg, |x|)), c.kernel.hbc)
  {
    var dx := Removed(x, c.avg);
    var dy := Removed(y, AvgAt(x, c.avg, |x|));
    RemovedSplit(x, y, c.avg);
    SignedSplit(dx, dy);
    QuadSplit(dx, dy, c.kernel.hbc);
    ConcatAssoc(c.history, Signed(dx), Signed(dy));
    ConcatAssoc(c.pending, Quad(dx, c.kernel.hbc), Quad(dy, c.kernel.hbc));
  }

  /** The call on `y` after `x` sees the suffixes of the combined lines. */
  lemma SplitCarry(c: Converter, x: seq<real>, y: seq<real>)
    requires Shaped(c) && |x| % 4 == 0
    ensures Queue(Process(c, x).next, Removed(y, AvgAt(x, c.avg, |x|))) == Queue(c, Removed(x + y, c.avg))[|x|..]
    ensures DelayLine(Process(c, x).next, Removed(y, AvgAt(x, c.avg, |x|)))
         == DelayLine(c, Removed(x + y, c.avg))[|x|..]
  {
    var dy := Removed(y, AvgAt(x, c.avg, |x|));
    var q1, dl1 := Queue(c, Removed(x, c.avg)), DelayLine(c, Removed(x, c.avg));
    SplitLines(c, x, y);
    var nx := Process(c, x).next;
    assert nx.history == q1[|x|..] && nx.pending == dl1[|x|..];
    SuffixOfConcat(q1, Signed(dy), |x|);
    SuffixOfConcat(dl1, Quad(dy, c.kernel.hbc), |x|);
  }

  lemma OutAtFrame(fir: seq<real>, q1: seq<real>, dl1: seq<real>, j1: nat, q2: seq<real>, dl2: seq<real>, j2: nat)
    requires Pairs <= |fir| && j1 + History < |q1| && j1 < |dl1| && j2 + History < |q2| && j2 < |dl2|
    requires q1[j1..j1 + History + 1] == q2[j2..j2 + History + 1] && dl1[j1] == dl2[j2] && j1 % 2 == j2 % 2
    ensures OutAt(fir, q1, dl1, j1) == OutAt(fir, q2, dl2, j2)
  {
    PairSumFrame(fir, q1, j1, q2, j2, Pairs);
  }

  lemma SplitOutputFirst(c: Converter, x: seq<real>, y: seq<real>, j: nat)
    requires Shaped(c) && |x| % 4 == 0 && |y| % 4 == 0 && j < |x|
    ensures |x + y| % 4 == 0
    ensures Process(c, x + y).out[j] == Process(c, x).out[j]
  {
    ModShift(|y|, |x|);
    SplitLines(c, x, y);
    var dy := Removed(y, AvgAt(x, c.avg, |x|));
    var q, dl := Queue(c, Removed(x + y, c.avg)), DelayLine(c, Removed(x + y, c.avg));
    var q1, dl1 := Queue(c, Removed(x, c.avg)), DelayLine(c, Removed(x, c.avg));
    assert q[j..j + History + 1] == q1[j..j + History + 1];
    OutAtFrame(c.kernel.fir, q, dl, j, q1, dl1, j);
  }

  /** Output `j` of a call, in terms of its queue and delay line. */
  lemma OutOf(c: Converter, x: seq<real>, j: nat)
    requires Shaped(c) && |x| % 4 == 0 && j < |x|
    ensures Process(c, x).out[j]
         == OutAt(c.kernel.fir, Queue(c, Removed(x, c.avg)), DelayLine(c, Removed(x, c.avg)), j)
  {
  }

  lemma SplitOutputSecond(c: Converter, x: seq<real>, y: seq<real>, j: nat)
    requires Shaped(c) && |x| % 4 == 0 && |y| % 4 == 0 && j < |y|
    ensures |x + y| % 4 == 0
    ensures Process(c, x + y).out[|x| + j] == Process(Process(c, x).next, y).out[j]
  {
    ModShift(|y|, |x|);
    ModShift(j, |x|);
    var nx := Process(c, x).next;
    var dy := Removed(y, AvgAt(x, c.avg, |x|));
    var q, dl := Queue(c, Removed(x + y, c.avg)), DelayLine(c, Removed(x + y, c.avg));
    SplitCarry(c, x, y);
    var q2, dl2 := Queue(nx, dy), DelayLine(nx, dy);
    assert q2 == q[|x|..] && dl2 == dl[|x|..];
    assert nx.avg == AvgAt(x, c.avg, |x|) && nx.kernel == c.kernel && Shaped(nx);
    OutOf(nx, y, j);
    OutOf(c, x + y, |x| + j);
    assert q[|x| + j..|x| + j + History + 1] == q2[j..j + History + 1];
    OutAtFrame(c.kernel.fir, q, dl, |x| + j, q2, dl2, j);
  }

  lemma SplitOutputs(c: Converter, x: seq<real>, y: seq<real>)
    requires Shaped(c) && |x| % 4 == 0 && |y| % 4 == 0
    ensures |x + y| % 4 == 0
    ensures Process(c, x + y).out == Process(c, x).out + Process(Process(c, x).next, y).out
  {
    var whole := Process(c, x + y).out;
    var first := Process(c, x).out;
    var second := Process(Process(c, x).next, y).out;
    forall j | 0 <= j < |x| + |y|
      ensures whole[j] == (first + second)[j]
    {
      if j < |x| {
        SplitOutputFirst(c, x, y, j);
      } else {
        SplitOutputSecond(c, x, y, j - |x|);
      }
    }
  }

  /** Processing `x` and then `y` gives the outputs and final state of
      processing `x + y` in one call. */
  lemma ProcessSplit(c: Converter, x: seq<real>, y: seq<real>)
    requires Shaped(c) && |x| % 4 == 0 && |y| % 4 == 0
    ensures |x + y| % 4 == 0
    ensures Process(c, x + y) == Block(Process(c, x).out + Process(Process(c, x).next, y).out,
                                       Process(Process(c, x).next, y).next)
  {
    SplitOutputs(c, x, y);
    SplitCarry(c, x, y);
    AvgSplit(x, y, c.avg, |y|);
    var whole := Process(c, x + y);
    var b2 := Process(Process(c, x).next, y);
    assert whole.next.history == b2.next.history;
    assert whole.next.pending == b2.next.pending;
  }

  lemma {:induction false} FlattenQuadruple(blocks: seq<seq<real>>)
    requires AllQuadruple(blocks)
    ensures |Flatten(blocks)| % 4 == 0
    decreases |blocks|
  {
    if blocks != [] {
      FlattenQuadruple(blocks[1..]);
    }
  }

  /** Any split of a stream into blocks that are multiples of four gives the
      outputs and final state of a single call on the whole stream. */
  lemma {:induction false} RunIsOneCall(c: Converter, blocks: seq<seq<real>>)
    requires Shaped(c) && AllQuadruple(blocks)
    ensures |Flatten(blocks)| % 4 == 0
    ensures Run(c, blocks) == Process(c, Flatten(blocks))
    decreases |blocks|
  {
    FlattenQuadruple(blocks);
    if blocks == [] {
      var d := Removed([], c.avg);
      assert Queue(c, d)[0..] == c.history;
      assert DelayLine(c, d)[0..] == c.pending;
    } else {
      var first := Process(c, blocks[0]);
      RunIsOneCall(first.next, blocks[1..]);
      ProcessSplit(c, blocks[0], Flatten(blocks[1..]));
    }
  }

  // ------------------------------------------------------------ zero input

  lemma {:induction false} AvgOfZeros(x: seq<real>, j: nat)
    requires IsZero(x) && j <= |x|
    ensures AvgAt(x, 0.0, j) == 0.0
    decreases j
  {
    if j > 0 {
      AvgOfZeros(x, j - 1);
    }
  }

  lemma {:induction false} PairSumOfZeros(fir: seq<real>, q: seq<real>, j: nat, k: nat)
    requires k <= Pairs <= |fir| && j + History < |q| && IsZero(q)
    ensures PairSum(fir, q, j, k) == 0.0
    decreases k
  {
    if k > 0 {
      PairSumOfZeros(fir, q, j, k - 1);
    }
  }

  /** A quiet converter fed a zero block outputs zeros and stays quiet. */
  lemma QuietZeroBlock(c: Converter, x: seq<real>)
    requires Shaped(c) && Quiet(c) && IsZero(x) && |x| % 4 == 0
    ensures IsZero(Process(c, x).out)
    ensures Process(c, x).next == c
  {
    var b := Process(c, x);
    var d := Removed(x, 0.0);
    forall j | 0 <= j < |x|
      ensures d[j] == 0.0
    {
      AvgOfZeros(x, j);
    }
    var q := Queue(c, d);
    var dl := DelayLine(c, d);
    assert IsZero(q);
    assert IsZero(dl);
    forall j | 0 <= j < |x| && j % 2 == 0
      ensures b.out[j] == 0.0
    {
      PairSumOfZeros(c.kernel.fir, q, j, Pairs);
    }
    AvgOfZeros(x, |x|);
    assert b.next.history == c.history;
    assert b.next.pending == c.pending;
  }

  /** Any number of zero blocks through a quiet converter give zero output and
      leave it quiet. */
  lemma {:induction false} QuietZeroRun(c: Converter, blocks: seq<seq<real>>)
    requires Shaped(c) && Quiet(c) && AllQuadruple(blocks)
    requires forall i :: 0 <= i < |blocks| ==> IsZero(blocks[i])
    ensures IsZero(Run(c, blocks).out)
    ensures Run(c, blocks).next == c
    decreases |blocks|
  {
    if blocks != [] {
      QuietZeroBlock(c, blocks[0]);
      QuietZeroRun(c, blocks[1..]);
    }
  }

  // -------------------------------------------------- reset and fresh state

  lemma ResetIdempotent(c: Converter)
    ensures Reset(Reset(c)) == Reset(c)
  {
  }

  /** Processing never reads the position counters: two converters that
      differ only in them produce the same outputs. */
  lemma {:induction false} CountersIgnored(c1: Converter, c2: Converter, blocks: seq<seq<real>>)
    requires Shaped(c1) && AllQuadruple(blocks)
    requires c2 == c1.(firIndex := c2.firIndex, delayIndex := c2.delayIndex)
    ensures Shaped(c2)
    ensures Run(c1, blocks).out == Run(c2, blocks).out
    ensures Run(c2, blocks).next == Run(c1, blocks).next.(firIndex := c2.firIndex, delayIndex := c2.delayIndex)
    decreases |blocks|
  {
    if blocks != [] {
      var f1 := Process(c1, blocks[0]);
      var f2 := Process(c2, blocks[0]);
      assert f2.out == f1.out;
      assert f2.next == f1.next.(firIndex := c2.firIndex, delayIndex := c2.delayIndex);
      CountersIgnored(f1.next, f2.next, blocks[1..]);
    }
  }

  /** A freshly created converter and a reset one holding the same kernel
      produce identical outputs on identical input. */
  lemma FreshEqualsReset(hb: seq<real>, len: int, c: Converter, blocks: seq<seq<real>>)
    requires |hb| == len && len % 2 == 1 && len >= 2 * Pairs - 1
    requires c.kernel == Create(hb, len).kernel && AllQuadruple(blocks)
    ensures Shaped(Reset(c))
    ensures Run(Create(hb, len), blocks).out == Run(Reset(c), blocks).out
  {
    CountersIgnored(Create(hb, len), Reset(c), blocks);
  }

  // --------------------------------------------------- quadrature alignment

  /** Every pending delay-line entry is the quadrature value of the history
      entry at the centre of the window it will be emitted beside. */
  predicate Coherent(c: Converter) {
    && Shaped(c)
    && forall m :: 0 <= m < Lag ==> c.pending[m] == QuadOf(c.history[m + History - Lag], m, c.kernel.hbc)
  }

  lemma QuietCoherent(c: Converter)
    requires Shaped(c) && Quiet(c)
    ensures Coherent(c)
  {
    forall m | 0 <= m < Lag
      ensures c.pending[m] == QuadOf(c.history[m + History - Lag], m, c.kernel.hbc)
    {
      assert c.pending[m] == 0.0 && c.history[m + History - Lag] == 0.0;
    }
  }

  /** Odd output `j` is the centre tap applied, with the sign of `j % 4`, to
      queue entry `j + History - Lag`, the centre of the window of the
      in-phase output at `j - 1`: I and Q stay aligned in time. */
  lemma QuadratureAligned(c: Converter, x: seq<real>)
    requires Coherent(c) && |x| % 4 == 0
    ensures forall j :: 0 <= j < |x| && j % 2 == 1 ==>
              Process(c, x).out[j] == QuadOf(Queue(c, Removed(x, c.avg))[j + History - Lag], j, c.kernel.hbc)
  {
    var d := Removed(x, c.avg);
    var q := Queue(c, d);
    var b := Process(c, x);
    forall j | 0 <= j < |x| && j % 2 == 1
      ensures b.out[j] == QuadOf(q[j + History - Lag], j, c.kernel.hbc)
    {
      if j >= Lag {
        ModShift(j, Lag);
        assert q[j + History - Lag] == d[j - Lag];
      }
    }
  }

  lemma CoherentAt(c: Converter, x: seq<real>, m: nat)
    requires Coherent(c) && |x| % 4 == 0 && m < Lag
    ensures Process(c, x).next.pending[m] == QuadOf(Process(c, x).next.history[m + History - Lag], m, c.kernel.hbc)
  {
    var n := |x|;
    var d := Removed(x, c.avg);
    var q := Queue(c, d);
    var dl := DelayLine(c, d);
    var nx := Process(c, x).next;
    assert nx.pending[m] == dl[n + m];
    assert nx.history[m + History - Lag] == q[n + m + History - Lag];
    ModShift(m, n);
    if n + m >= Lag {
      ModShift(n + m, Lag);
    }
  }

  /** Coherence survives every call, so alignment holds across calls. */
  lemma CoherentPreserved(c: Converter, x: seq<real>)
    requires Coherent(c) && |x| % 4 == 0
    ensures Coherent(Process(c, x).next)
  {
    var nx := Process(c, x).next;
    forall m | 0 <= m < Lag
      ensures nx.pending[m] == QuadOf(nx.history[m + History - Lag], m, c.kernel.hbc)
    {
      CoherentAt(c, x, m);
    }
  }

  /** Odd outputs read the quadrature value written `Lag` samples earlier;
      the first `Lag` come from the pending entries of the previous call. */
  lemma OddOutputsDelayed(c: Converter, x: seq<real>)
    requires Shaped(c) && |x| % 4 == 0
    ensures forall j :: 0 <= j < |x| && j % 2 == 1 && j < Lag ==> Process(c, x).out[j] == c.pending[j]
    ensures forall j :: Lag <= j < |x| && j % 2 == 1 ==>
              Process(c, x).out[j] == QuadOf(Removed(x, c.avg)[j - Lag], j, c.kernel.hbc)
  {
    var d := Removed(x, c.avg);
    forall j | Lag <= j < |x| && j % 2 == 1
      ensures Process(c, x).out[j] == QuadOf(d[j - Lag], j, c.kernel.hbc)
    {
      assert (j - Lag) % 4 == j % 4;
    }
  }

  /** From a quiet (fresh or reset) state the odd outputs before `Lag` are 0. */
  lemma QuietOddPrefixZero(c: Converter, x: seq<real>)
    requires Shaped(c) && Quiet(c) && |x| % 4 == 0
    ensures forall j :: 0 <= j < |x| && j < Lag && j % 2 == 1 ==> Process(c, x).out[j] == 0.0
  {
    OddOutputsDelayed(c, x);
  }

  // --------------------------------------------------------- kernel folding

  /** Entry `i` equals entry `|s| - 1 - i`. */
  predicate Symmetric(s: seq<real>) {
    forall i, k :: 0 <= i < |s| && k == |s| - 1 - i ==> s[i] == s[k]
  }

  /** `fir[lo] * q[j] + fir[lo + 1] * q[j + 2] + ...` up to `hi`: the
      convolution with the retained taps, which sit two queue slots apart. */
  function EvenTaps(fir: seq<real>, q: seq<real>, j: nat, lo: nat, hi: nat): real
    requires lo <= hi <= |fir| && j + 2 * hi <= |q| + 1
    decreases hi - lo
  {
    if lo == hi then 0.0 else EvenTaps(fir, q, j, lo, hi - 1) + fir[hi - 1] * q[j + 2 * (hi - 1)]
  }

  lemma {:induction false} EvenTapsLow(fir: seq<real>, q: seq<real>, j: nat, lo: nat, hi: nat)
    requires lo < hi <= |fir| && j + 2 * hi <= |q| + 1
    ensures EvenTaps(fir, q, j, lo, hi) == fir[lo] * q[j + 2 * lo] + EvenTaps(fir, q, j, lo + 1, hi)
    decreases hi - lo
  {
    if hi - 1 > lo {
      EvenTapsLow(fir, q, j, lo, hi - 1);
    }
  }

  lemma {:induction false} EvenTapsSplit(fir: seq<real>, q: seq<real>, j: nat, lo: nat, mid: nat, hi: nat)
    requires lo <= mid <= hi <= |fir| && j + 2 * hi <= |q| + 1
    ensures EvenTaps(fir, q, j, lo, hi) == EvenTaps(fir, q, j, lo, mid) + EvenTaps(fir, q, j, mid, hi)
    decreases hi - mid
  {
    if hi > mid {
      EvenTapsSplit(fir, q, j, lo, mid, hi - 1);
    }
  }

  lemma {:induction false} PairsFold(fir: seq<real>, q: seq<real>, j: nat, k: nat)
    requires |fir| == 2 * Pairs && Symmetric(fir) && k <= Pairs && j + History < |q|
    ensures PairSum(fir, q, j, k) == EvenTaps(fir, q, j, 0, k) + EvenTaps(fir, q, j, 2 * Pairs - k, 2 * Pairs)
    decreases k
  {
    if k > 0 {
      PairsFold(fir, q, j, k - 1);
      PairStep(fir, q, j, k);
    }
  }

  /** Pair `k - 1` contributes its low tap to the leading run of retained
      taps and its mirrored high tap to the trailing run. */
  lemma PairStep(fir: seq<real>, q: seq<real>, j: nat, k: nat)
    requires |fir| == 2 * Pairs && Symmetric(fir) && 0 < k <= Pairs && j + History < |q|
    ensures PairSum(fir, q, j, k) - PairSum(fir, q, j, k - 1)
         == (EvenTaps(fir, q, j, 0, k) - EvenTaps(fir, q, j, 0, k - 1))
          + (EvenTaps(fir, q, j, 2 * Pairs - k, 2 * Pairs) - EvenTaps(fir, q, j, 2 * Pairs - k + 1, 2 * Pairs))
  {
    PairSumLast(fir, q, j, k);
    EvenTapsLast(fir, q, j, 0, k);
    MirrorTap(fir, q, j, k);
    Distrib(fir[k - 1], q[j + 2 * (k - 1)], q[j + History - 2 * (k - 1)]);
    Combine(PairSum(fir, q, j, k), PairSum(fir, q, j, k - 1),
            EvenTaps(fir, q, j, 0, k), EvenTaps(fir, q, j, 0, k - 1),
            EvenTaps(fir, q, j, 2 * Pairs - k, 2 * Pairs), EvenTaps(fir, q, j, 2 * Pairs - k + 1, 2 * Pairs),
            fir[k - 1] * (q[j + 2 * (k - 1)] + q[j + History - 2 * (k - 1)]),
            fir[k - 1] * q[j + 2 * (k - 1)], fir[k - 1] * q[j + History - 2 * (k - 1)]);
  }

  lemma PairSumLast(fir: seq<real>, q: seq<real>, j: nat, k: nat)
    requires 0 < k <= Pairs <= |fir| && j + History < |q|
    ensures PairSum(fir, q, j, k)
         == PairSum(fir, q, j, k - 1) + fir[k - 1] * (q[j + 2 * (k - 1)] + q[j + History - 2 * (k - 1)])
  {
  }

  lemma EvenTapsLast(fir: seq<real>, q: seq<real>, j: nat, lo: nat, hi: nat)
    requires lo < hi <= |fir| && j + 2 * hi <= |q| + 1
    ensures EvenTaps(fir, q, j, lo, hi) == EvenTaps(fir, q, j, lo, hi - 1) + fir[hi - 1] * q[j + 2 * (hi - 1)]
  {
  }

  /** In a symmetric kernel the tap mirrored from `k - 1` weighs the high
      queue entry of pair `k - 1`. */
  lemma MirrorTap(fir: seq<real>, q: seq<real>, j: nat, k: nat)
    requires |fir| == 2 * Pairs && Symmetric(fir) && 0 < k <= Pairs && j + History < |q|
    ensures EvenTaps(fir, q, j, 2 * Pairs - k, 2 * Pairs)
         == fir[k - 1] * q[j + History - 2 * (k - 1)] + EvenTaps(fir, q, j, 2 * Pairs - k + 1, 2 * Pairs)
  {
    EvenTapsLow(fir, q, j, 2 * Pairs - k, 2 * Pairs);
    assert fir[2 * Pairs - k] == fir[k - 1];
    MulCongr(fir[2 * Pairs - k], q[j + 2 * (2 * Pairs - k)], fir[k - 1], q[j + History - 2 * (k - 1)]);
    Replace(EvenTaps(fir, q, j, 2 * Pairs - k, 2 * Pairs),
            fir[2 * Pairs - k] * q[j + 2 * (2 * Pairs - k)], fir[k - 1] * q[j + History - 2 * (k - 1)],
            EvenTaps(fir, q, j, 2 * Pairs - k + 1, 2 * Pairs));
  }

  lemma Replace(e: real, m1: real, m2: real, rest: real)
    requires e == m1 + rest && m1 == m2
    ensures e == m2 + rest
  {
  }

  lemma MulCongr(x1: real, y1: real, x2: real, y2: real)
    requires x1 == x2 && y1 == y2
    ensures x1 * y1 == x2 * y2
  {
  }

  /** Splitting one weighted pair between the two runs it feeds. */
  lemma Combine(p1: real, p0: real, e1: real, e0: real, f1: real, f0: real, m: real, ml: real, mh: real)
    requires p1 == p0 + m && e1 == e0 + ml && f1 == mh + f0 && m == ml + mh
    ensures p1 - p0 == (e1 - e0) + (f1 - f0)
  {
  }

  lemma Distrib(t: real, x: real, y: real)
    ensures t * (x + y) == t * x + t * y
  {
  }

  /** For a symmetric 47-tap half-band kernel, `Create` keeps 24 taps and the
      centre tap at index 23, and the 12 folded pairs compute the full
      convolution of the queue with all 24 retained taps. */
  lemma HalfBandFolding(hb: seq<real>, q: seq<real>, j: nat)
    requires |hb| == 47 && Symmetric(hb) && j + History < |q|
    ensures |Create(hb, 47).kernel.fir| == 24 && Create(hb, 47).kernel.hbc == hb[23]
    ensures FirAt(Create(hb, 47).kernel.fir, q, j) == EvenTaps(Create(hb, 47).kernel.fir, q, j, 0, 24)
  {
    var fir := Create(hb, 47).kernel.fir;
    forall i, k | 0 <= i < |fir| && k == |fir| - 1 - i
      ensures fir[i] == fir[k]
    {
      assert fir[i] == hb[2 * i] && fir[k] == hb[46 - 2 * i];
    }
    PairsFold(fir, q, j, Pairs);
    EvenTapsSplit(fir, q, j, 0, Pairs, 2 * Pairs);
  }
}

=== FILE: iq_spec.dfy ===
/** Functional model of the float half-band Hilbert IQ converter.

    One call of the converter takes a block of real samples whose length is a
    multiple of four and the state carried from the previous call, and yields
    a block of the same length (interleaved I/Q at half the input rate) plus
    the state for the next call.  Samples are `real`: the model is exact where
    the C code computes in single precision, and says nothing about rounding.
 */
module IqSpec {

  /** Queue entries kept in front of every block (the filter history). */
  const History: nat := 46
  /** Distance between the delay-line slot a quadrature value is written to
      and the slot that is read in the same group (the matched group delay). */
  const Lag: nat := 24
  /** Delay-line entries copied to the front after a call; entries `Lag` to
      `DelayCarry - 1` are copied too, but are overwritten before they are read. */
  const DelayCarry: nat := 28
  /** Symmetric kernel pairs summed for one in-phase output. */
  const Pairs: nat := 12
  /** Gain of the leaky DC integrator. */
  const Scale: real := 0.01

  /** The retained part of a half-band kernel: its even taps and its centre tap. */
  datatype Kernel = Kernel(fir: seq<real>, hbc: real)

  /** The converter state.  `history` is the first `History` entries of the
      filter queue and `pending` the first `Lag` entries of the delay line;
      `firIndex` and `delayIndex` are position counters that processing never reads. */
  datatype Converter = Converter(kernel: Kernel, avg: real, firIndex: int, delayIndex: int,
                                 history: seq<real>, pending: seq<real>)

  /** The result of one call: the output block and the state for the next call. */
  datatype Block = Block(out: seq<real>, next: Converter)

  predicate Shaped(c: Converter) {
    |c.kernel.fir| >= Pairs && |c.history| == History && |c.pending| == Lag
  }

  predicate IsZero(s: seq<real>) {
    forall i :: 0 <= i < |s| ==> s[i] == 0.0
  }

  function Zeros(n: nat): (z: seq<real>)
    ensures |z| == n && IsZero(z)
  {
    seq(n, _ => 0.0)
  }

  /** All carried sample state is zero, as after a reset. */
  predicate Quiet(c: Converter) {
    c.avg == 0.0 && IsZero(c.history) && IsZero(c.pending)
  }

  /** Zeroes the DC estimate, both counters, the history and the delay line;
      the kernel is kept. */
  function Reset(c: Converter): (r: Converter)
    ensures r.kernel == c.kernel && Quiet(r) && r.firIndex == 0 && r.delayIndex == 0
    ensures |r.history| == History && |r.pending| == Lag
    ensures |c.kernel.fir| >= Pairs ==> Shaped(r)
  {
    c.(avg := 0.0, firIndex := 0, delayIndex := 0, history := Zeros(History), pending := Zeros(Lag))
  }

  /** Builds a converter from a half-band kernel of `len` taps: keeps the taps
      at even indices and the centre tap, resets all state, then records `len`
      in the (unused) queue position counter. */
  function Create(hb: seq<real>, len: int): (c: Converter)
    requires |hb| == len && len % 2 == 1 && len >= 2 * Pairs - 1
    ensures Shaped(c) && Quiet(c)
    ensures |c.kernel.fir| == len / 2 + 1
    ensures forall i :: 0 <= i < |c.kernel.fir| ==> c.kernel.fir[i] == hb[2 * i]
    ensures c.kernel.hbc == hb[len / 2]
    ensures c.firIndex == len && c.delayIndex == 0
  {
    var fir := seq(len / 2 + 1, i requires 0 <= i < len / 2 + 1 => hb[2 * i]);
    var blank := Converter(Kernel(fir, hb[len / 2]), 0.0, 0, 0, [], []);
    Reset(blank).(firIndex := len)
  }

  // ---------------------------------------------------------------- DC removal

  /** The DC estimate in force when sample `j` of `x` is processed, starting
      from `a`: each sample has the estimate subtracted, then the estimate
      moves by `Scale` times the difference. */
  function AvgAt(x: seq<real>, a: real, j: nat): real
    requires j <= |x|
  {
    if j == 0 then a
    else
      var prev := AvgAt(x, a, j - 1);
      prev + Scale * (x[j - 1] - prev)
  }

  /** The block with the running DC estimate removed, sample by sample. */
  function Removed(x: seq<real>, a: real): (d: seq<real>)
    ensures |d| == |x|
  {
    seq(|x|, j requires 0 <= j < |x| => x[j] - AvgAt(x, a, j))
  }

  // ------------------------------------------------------ queue and delay line

  /** Queue entry for block position `j`: negated when `j % 4 == 0`. */
  function Signed(d: seq<real>): (s: seq<real>)
    ensures |s| == |d|
  {
    seq(|d|, j requires 0 <= j < |d| => if j % 4 == 0 then -d[j] else d[j])
  }

  /** The quadrature value a DC-removed sample `v` at position `j` contributes:
      minus the centre tap at `j % 4 == 1`, plus at `j % 4 == 3`, nothing at
      even positions. */
  function QuadOf(v: real, j: int, hbc: real): real {
    if j % 4 == 1 then -(v * hbc) else if j % 4 == 3 then v * hbc else 0.0
  }

  function Quad(d: seq<real>, hbc: real): (w: seq<real>)
    ensures |w| == |d|
  {
    seq(|d|, j requires 0 <= j < |d| => QuadOf(d[j], j, hbc))
  }

  /** The filter queue of one call: history followed by the signed block. */
  function Queue(c: Converter, d: seq<real>): seq<real> {
    c.history + Signed(d)
  }

  /** The delay line of one call: pending entries followed by the block's
      quadrature values, position `j` of the block at index `j + Lag`. */
  function DelayLine(c: Converter, d: seq<real>): seq<real> {
    c.pending + Quad(d, c.kernel.hbc)
  }

  // ------------------------------------------------------------- FIR section

  /** The first `k` kernel pairs applied to the queue window starting at `j`. */
  function PairSum(fir: seq<real>, q: seq<real>, j: nat, k: nat): real
    requires k <= Pairs <= |fir| && j + History < |q|
  {
    if k == 0 then 0.0
    else PairSum(fir, q, j, k - 1) + fir[k - 1] * (q[j + 2 * (k - 1)] + q[j + History - 2 * (k - 1)])
  }

  /** In-phase output for queue window `q[j..j + History]`. */
  function FirAt(fir: seq<real>, q: seq<real>, j: nat): real
    requires Pairs <= |fir| && j + History < |q|
  {
    PairSum(fir, q, j, Pairs)
  }

  // --------------------------------------------------------------- one call

  /** Output `j` of a call: in-phase from the FIR at even `j`, quadrature
      from the delay line at odd `j`. */
  function OutAt(fir: seq<real>, q: seq<real>, dl: seq<real>, j: nat): real
    requires Pairs <= |fir| && j + History < |q| && j < |dl|
  {
    if j % 2 == 0 then FirAt(fir, q, j) else dl[j]
  }

  /** One call: even outputs come from the FIR, odd outputs from the delay
      line; the last `History` queue entries, the last `Lag` live delay-line
      entries and the final DC estimate are carried. */
  function Process(c: Converter, x: seq<real>): (b: Block)
    requires Shaped(c) && |x| % 4 == 0
    ensures |b.out| == |x| && Shaped(b.next)
    ensures b.next.kernel == c.kernel
    ensures b.next.firIndex == c.firIndex && b.next.delayIndex == c.delayIndex
  {
    var n := |x|;
    var d := Removed(x, c.avg);
    var q := Queue(c, d);
    var dl := DelayLine(c, d);
    Block(seq(n, j requires 0 <= j < n => OutAt(c.kernel.fir, q, dl, j)),
          c.(avg := AvgAt(x, c.avg, n), history := q[n..], pending := dl[n..]))
  }

  predicate AllQuadruple(blocks: seq<seq<real>>) {
    forall i :: 0 <= i < |blocks| ==> |blocks[i]| % 4 == 0
  }

  /** Consecutive calls, one per block, threading the state. */
  function Run(c: Converter, blocks: seq<seq<real>>): (b: Block)
    requires Shaped(c) && AllQuadruple(blocks)
    ensures Shaped(b.next) && b.next.kernel == c.kernel
    ensures b.next.firIndex == c.firIndex && b.next.delayIndex == c.delayIndex
    decreases |blocks|
  {
    if blocks == [] then Block([], c)
    else
      var first := Process(c, blocks[0]);
      var rest := Run(first.next, blocks[1..]);
      Block(first.out + rest.out, rest.next)
  }

  function Flatten(blocks: seq<seq<real>>): (s: seq<real>)
    decreases |blocks|
  {
    if blocks == [] then [] else blocks[0] + Flatten(blocks[1..])
  }
}

=== FILE: sample_decode.dfy ===
/** Decoding of raw ADC words into signed 16-bit or float samples.

    A raw word holds an unsigned 12-bit ADC reading centred on 2048 in a
    16-bit container.  The fixed-point decode recentres it and shifts it up by
    `SampleShift` bits into the signed 16-bit range; the float decode
    recentres it and scales it by 2^-12.  The stored 16-bit value is the
    wrapped (two's complement) remainder, which only matters for container
    values of 4096 and above, which a 12-bit converter never produces. */
module SampleDecode {

  /** Bits the fixed-point decode shifts by. */
  const SampleShift: nat := 3
  /** Bits of ADC resolution. */
  const SampleResolution: nat := 12
  /** Midscale of a 12-bit reading. */
  const Center: int := 2048

  /** An unsigned 16-bit container word. */
  type Raw = x: int | 0 <= x < 0x1_0000
  /** A signed 16-bit value. */
  type I16 = x: int | -0x8000 <= x < 0x8000

  function Pow2(k: nat): (p: nat)
    ensures p >= 1
  {
    if k == 0 then 1 else 2 * Pow2(k - 1)
  }

  /** A reading the 12-bit converter can produce. */
  predicate Is12Bit(raw: int) {
    0 <= raw < Pow2(SampleResolution)
  }

  /** The signed 16-bit value with the same low 16 bits as `v`. */
  function Wrap16(v: int): (w: I16)
    ensures (w - v) % 0x1_0000 == 0
    ensures -0x8000 <= v < 0x8000 ==> w == v
  {
    var m := v % 0x1_0000;
    if m < 0x8000 then m else m - 0x1_0000
  }

  /** The float scale factor, written as the C code writes it: one over
      two to the power `15 - SampleShift`. */
  const SampleScale: real := 1.0 / (Pow2(15 - SampleShift) as real)

  /** Fixed-point decode: recentre, shift left by `SampleShift`, store as a
      signed 16-bit value. */
  function Int16Sample(raw: Raw): (s: I16)
    ensures (s - (raw - Center) * 8) % 0x1_0000 == 0
  {
    Wrap16((raw - Center) * Pow2(SampleShift))
  }

  /** Float decode: recentre and multiply by `SampleScale`. */
  function FloatSample(raw: Raw): (f: real)
    ensures f * 4096.0 == (raw - Center) as real
  {
    ScaleIsPowerOfTwo();
    (raw - Center) as real * SampleScale
  }

  lemma ScaleIsPowerOfTwo()
    ensures Pow2(15 - SampleShift) == 4096 && Pow2(SampleResolution) == 4096
    ensures SampleScale == 1.0 / 4096.0
  {
    assert Pow2(12) == 4096 by {
      assert Pow2(4) == 16;
      assert Pow2(8) == 256;
    }
  }

  /** For a 12-bit reading the fixed-point decode does not wrap: it is the
      recentred reading times eight, lies in [-16384, 16376] and is a multiple
      of eight. */
  lemma Int16Exact(raw: Raw)
    requires Is12Bit(raw)
    ensures Int16Sample(raw) == (raw - Center) * 8
    ensures -16384 <= Int16Sample(raw) <= 16376 && Int16Sample(raw) % 8 == 0
  {
    ScaleIsPowerOfTwo();
  }

  /** Midscale decodes to zero. */
  lemma MidscaleIsZero()
    ensures Int16Sample(Center) == 0 && FloatSample(Center) == 0.0
  {
  }

  /** The reading a fixed-point sample came from. */
  function Int16Raw(s: I16): (raw: int)
    ensures s % 8 == 0 && -16384 <= s <= 16376 ==> Is12Bit(raw)
  {
    ScaleIsPowerOfTwo();
    s / 8 + Center
  }

  /** The fixed-point decode is a bijection between 12-bit readings and
      the multiples of eight in [-16384, 16376]. */
  lemma Int16RoundTrip(raw: Raw, s: I16)
    ensures Is12Bit(raw) ==> Int16Raw(Int16Sample(raw)) == raw
    ensures s % 8 == 0 && -16384 <= s <= 16376 ==> Int16Sample(Int16Raw(s)) == s
  {
    if Is12Bit(raw) {
      Int16Exact(raw);
    }
    if s % 8 == 0 && -16384 <= s <= 16376 {
      Int16Exact(Int16Raw(s));
    }
  }

  lemma Int16Injective(r1: Raw, r2: Raw)
    requires Is12Bit(r1) && Is12Bit(r2) && Int16Sample(r1) == Int16Sample(r2)
    ensures r1 == r2
  {
    Int16RoundTrip(r1, 0);
    Int16RoundTrip(r2, 0);
  }

  /** Container values of 4096 and above do wrap: 6144 decodes to the most
      negative 16-bit value. */
  lemma Int16WrapsAbove12Bits()
    ensures !Is12Bit(6144) && Int16Sample(6144) == -0x8000
  {
    ScaleIsPowerOfTwo();
  }

  /** For a 12-bit reading the float decode is exactly the fixed-point decode
      divided by 2^15, and lies in [-0.5, 0.5). */
  lemma FloatMatchesInt16(raw: Raw)
    requires Is12Bit(raw)
    ensures FloatSample(raw) == Int16Sample(raw) as real / 32768.0
    ensures -0.5 <= FloatSample(raw) < 0.5
  {
    ScaleIsPowerOfTwo();
    Int16Exact(raw);
  }

  /** Decodes the first `count` words of `src` to fixed point, one by one. */
  method ConvertSamplesInt16(src: seq<Raw>, count: int) returns (dest: seq<I16>)
    requires 0 <= count <= |src|
    ensures |dest| == count
    ensures forall i :: 0 <= i < count ==> dest[i] == Int16Sample(src[i])
    ensures forall i :: 0 <= i < count && Is12Bit(src[i]) ==> Int16Raw(dest[i]) == src[i]
  {
    dest := [];
    var i := 0;
    while i < count
      invariant 0 <= i <= count && |dest| == i
      invariant forall k :: 0 <= k < i ==> dest[k] == Int16Sample(src[k])
    {
      dest := dest + [Int16Sample(src[i])];
      i := i + 1;
    }
    forall k | 0 <= k < count && Is12Bit(src[k])
      ensures Int16Raw(dest[k]) == src[k]
    {
      Int16RoundTrip(src[k], 0);
    }
  }

  /** Decodes the first `count` words of `src` to float, one by one. */
  method ConvertSamplesFloat(src: seq<Raw>, count: int) returns (dest: seq<real>)
    requires 0 <= count <= |src|
    ensures |dest| == count
    ensures forall i :: 0 <= i < count ==> dest[i] * 4096.0 == (src[i] - Center) as real
    ensures forall i :: 0 <= i < count && Is12Bit(src[i]) ==> -0.5 <= dest[i] < 0.5
  {
    dest := [];
    var i := 0;
    while i < count
      invariant 0 <= i <= count && |dest| == i
      invariant forall k :: 0 <= k < i ==> dest[k] == FloatSample(src[k])
    {
      dest := dest + [(src[i] - Center) as real * SampleScale];
      i := i + 1;
    }
    forall k | 0 <= k < count && Is12Bit(src[k])
      ensures -0.5 <= dest[k] < 0.5
    {
      FloatMatchesInt16(src[k]);
    }
  }
}

=== FILE: spiflash.dfy ===
/** The address check and request encoding of the SPI flash write. */
module SpiFlash {
  import Streaming

  /** Highest writable flash address (1 MiB of flash). */
  const MaxAddress: bv32 := 0x0F_FFFF

  /** The control request sent for a write: the address split into the
      request's 16-bit value and index fields, and the payload length. */
  datatype Request = Request(value: bv32, index: bv32, length: nat)

  /** What a write does: the request it sends, if any, and its status. */
  datatype Write = Write(request: Option, status: Streaming.Status)

  datatype Option = None | Some(req: Request)

  /** A write of `length` bytes at `address`; `transferred` is what the
      control transfer reports (a byte count, or a negative error).  An
      address past `MaxAddress` is refused before anything is sent;
      otherwise the request carries the upper address bits as value and the
      lower 16 bits as index, and a short or failed transfer is `Libusb`. */
  function SpiflashWrite(address: bv32, length: nat, transferred: int): (w: Write)
    requires length < 0x1_0000
    ensures w.status == Streaming.InvalidParam <==> address > MaxAddress
    ensures w.status == Streaming.InvalidParam <==> w.request == None
    ensures w.request.Some? ==>
              && (w.request.req.value << 16) | w.request.req.index == address
              && w.request.req.value < 16 && w.request.req.index <= 0xFFFF
              && w.request.req.length == length
    ensures w.status == Streaming.Success <==> address <= MaxAddress && transferred >= length
    ensures w.status in {Streaming.Success, Streaming.InvalidParam, Streaming.Libusb}
  {
    if address > MaxAddress then Write(None, Streaming.InvalidParam)
    else
      var req := Request(address >> 16, address & 0xFFFF, length);
      Write(Some(req), if transferred < length then Streaming.Libusb else Streaming.Success)
  }

  /** Distinct accepted addresses give distinct requests. */
  lemma RequestsDistinct(a1: bv32, a2: bv32, length: nat, t1: int, t2: int)
    requires length < 0x1_0000 && a1 <= MaxAddress && a2 <= MaxAddress && a1 != a2
    ensures SpiflashWrite(a1, length, t1).request != SpiflashWrite(a2, length, t2).request
  {
    var w1 := SpiflashWrite(a1, length, t1);
    var w2 := SpiflashWrite(a2, length, t2);
    assert w1.request.Some? && w2.request.Some?;
  }
}

=== FILE: streaming.dfy ===
/** The streaming control of the receiver, as atomic steps on the three
    shared flags `streaming`, `stopRequested` and `dataAvailable`.

    The USB completion handler hands each finished transfer to a single
    receive buffer; the conversion thread takes a snapshot of that buffer,
    decodes and converts it and passes it to the user's callback; thread
    creation and teardown move the flags between idle and streaming.  Each
    function here is one step as the C code performs it when nothing runs
    concurrently; USB and thread library results are parameters. */
module Streaming {
  import opened SampleDecode
  import IqSpec

  /** Library status codes returned by the modelled functions. */
  datatype Status = Success | InvalidParam | Busy | Libusb | Thread | Other

  /** Output formats of the conversion thread. */
  datatype SampleType = Float32Iq | Float32Real | Int16Iq | Int16Real

  /** Bytes per USB transfer: the transfer size the device is opened with. */
  const BufferSize: nat := 262144
  /** USB transfers kept in flight. */
  const TransferCount: nat := 10
  /** Raw 16-bit words per transfer in the unpacked format. */
  const SampleCount: nat := BufferSize / 2

  /** The state the 16-bit IQ converter carries from one pass to the next.
      That converter is not part of this model: its state is kept as the
      words it holds, and its effect is a parameter of the conversion pass. */
  datatype Int16State = Int16State(words: seq<int>)

  /** One pass of the 16-bit IQ converter: the state it leaves behind and
      the samples it writes. */
  datatype Int16Pass = Int16Pass(next: Int16State, out: seq<I16>)

  /** The shared device state.  `received` is the receive buffer as 16-bit
      words; `cnvF` is the float IQ converter and `cnvI` the state of the
      16-bit one, both created once with the device and kept across passes;
      `totalDropped` is the dropped sample counter the device record declares. */
  datatype Device = Device(streaming: bool, stopRequested: bool, dataAvailable: bool,
                           received: seq<Raw>, totalDropped: nat, sampleType: SampleType,
                           cnvF: IqSpec.Converter, cnvI: Int16State)

  predicate Sized(d: Device) {
    |d.received| == SampleCount && IqSpec.Shaped(d.cnvF)
  }

  /** A stop is pending only while streaming.  Every step of this module
      keeps this when steps run one at a time.  Two interleavings of
      libairspy's threads can break it: a transfer failing while the user
      callback runs (the completion handler lowers `streaming`, then the
      conversion pass raises `stopRequested`), and the event loop lowering
      `streaming` on an error without looking at `stopRequested`. */
  predicate Consistent(d: Device) {
    d.stopRequested ==> d.streaming
  }

  /** Idle: no stream, no stop pending, no block pending. */
  predicate Idle(d: Device) {
    !d.streaming && !d.stopRequested && !d.dataAvailable
  }

  // ------------------------------------------------------- completion handler

  /** What a completion did besides changing the device: whether the block
      was copied into the receive buffer and whether submitting the transfer
      again was attempted (the attempt may fail and end the stream). */
  datatype Completion = Completion(dev: Device, copied: bool, resubmitTried: bool)

  /** The USB completion handler.  `completed` says whether the transfer
      finished normally, `data` is the transfer's buffer (always a whole
      transfer, since every transfer is filled with the full buffer size),
      `resubmitOk` whether submitting it again succeeds.  Ignored when not
      streaming or stopping; a failed transfer ends the stream; otherwise the
      transfer buffer replaces the receive buffer only if no block is pending
      (a pending block is never overwritten, the new one is dropped), and the
      transfer is resubmitted, a failed resubmission ending the stream. */
  function TransferCallback(d: Device, completed: bool, data: seq<Raw>, resubmitOk: bool): (c: Completion)
    requires |data| == |d.received|
    ensures c.copied <==> d.streaming && !d.stopRequested && completed && !d.dataAvailable
    ensures c.resubmitTried <==> d.streaming && !d.stopRequested && completed
    ensures c.dev.received == if c.copied then data else d.received
    ensures c.dev.dataAvailable == (d.dataAvailable || c.copied)
    ensures c.dev.streaming == (d.streaming && (d.stopRequested || (completed && resubmitOk)))
    ensures c.dev.stopRequested == d.stopRequested && c.dev.totalDropped == d.totalDropped
    ensures c.dev.sampleType == d.sampleType && c.dev.cnvF == d.cnvF && c.dev.cnvI == d.cnvI
    ensures Consistent(d) ==> Consistent(c.dev)
  {
    if !d.streaming || d.stopRequested then Completion(d, false, false)
    else if !completed then Completion(d.(streaming := false), false, false)
    else
      var copied := !d.dataAvailable;
      var d1 := if copied then d.(received := data, dataAvailable := true) else d;
      Completion(d1.(streaming := resubmitOk), copied, true)
  }

  // -------------------------------------------------------- conversion thread

  /** A block handed to the user callback: the output samples and the sample
      count the callback is told (complex samples for the IQ formats). */
  datatype SampleBlock = FloatBlock(f: seq<real>, count: nat) | Int16Block(s: seq<I16>, count: nat)

  datatype Conversion = Exited | Delivered(dev: Device, block: SampleBlock)

  function FloatSamples(raw: seq<Raw>): (f: seq<real>)
    ensures |f| == |raw|
    ensures forall i :: 0 <= i < |raw| ==> f[i] * 4096.0 == (raw[i] - Center) as real
  {
    seq(|raw|, i requires 0 <= i < |raw| => FloatSample(raw[i]))
  }

  function Int16Samples(raw: seq<Raw>): (s: seq<I16>)
    ensures |s| == |raw|
    ensures forall i :: 0 <= i < |raw| && Is12Bit(raw[i]) ==> Int16Raw(s[i]) == raw[i]
  {
    var s := seq(|raw|, i requires 0 <= i < |raw| => Int16Sample(raw[i]));
    forall i | 0 <= i < |raw| && Is12Bit(raw[i])
      ensures Int16Raw(s[i]) == raw[i]
    {
      Int16RoundTrip(raw[i], 0);
    }
    s
  }

  /** The sample count the callback is told for a buffer of `words` raw
      words: halved for the IQ formats, whose output holds I/Q pairs. */
  function DeliveredCount(t: SampleType, words: nat): (n: nat)
    ensures t == Float32Iq || t == Int16Iq ==> 2 * n <= words && words <= 2 * n + 1
    ensures t == Float32Real || t == Int16Real ==> n == words
  {
    match t
    case Float32Iq => words / 2
    case Int16Iq => words / 2
    case _ => words
  }

  /** One pass of the conversion loop.  The loop runs while streaming and no
      stop is requested; a pass snapshots the receive buffer, clears
      `dataAvailable`, decodes the `SampleCount` words in the selected format
      (the float IQ format through the float converter, the 16-bit IQ format
      through `iq16`, the 16-bit converter, which is not part of this model;
      each IQ converter starts from the state the previous pass left),
      hands the block to the user callback and, when the callback returns
      `userResult != 0`, requests a stop. */
  function ConversionStep(d: Device, iq16: (Int16State, seq<I16>) -> Int16Pass, userResult: int): (r: Conversion)
    requires Sized(d)
    ensures r.Exited? <==> !d.streaming || d.stopRequested
    ensures r.Delivered? ==>
      && !r.dev.dataAvailable && r.dev.streaming
      && (r.dev.stopRequested <==> userResult != 0)
      && r.dev.received == d.received && r.dev.totalDropped == d.totalDropped
      && r.dev.sampleType == d.sampleType && Sized(r.dev)
      && r.block.count == DeliveredCount(d.sampleType, SampleCount)
      && (d.sampleType == Float32Real ==> r.block == FloatBlock(FloatSamples(d.received), SampleCount))
      && (d.sampleType == Int16Real ==> r.block == Int16Block(Int16Samples(d.received), SampleCount))
      && (d.sampleType == Int16Iq ==>
            var pass := iq16(d.cnvI, Int16Samples(d.received));
            r.block.Int16Block? && r.block.s == pass.out && r.dev.cnvI == pass.next)
      && (d.sampleType == Float32Iq ==>
            var step := IqSpec.Process(d.cnvF, FloatSamples(d.received));
            r.block.FloatBlock? && r.block.f == step.out && r.dev.cnvF == step.next
            && |r.block.f| == 2 * r.block.count)
      && (d.sampleType != Float32Iq ==> r.dev.cnvF == d.cnvF)
      && (d.sampleType != Int16Iq ==> r.dev.cnvI == d.cnvI)
    ensures r.Delivered? ==> Consistent(r.dev)
  {
    if !d.streaming || d.stopRequested then Exited
    else
      var raw := d.received;
      var d1 := d.(dataAvailable := false);
      var (d2, block) :=
        match d.sampleType
        case Float32Iq =>
          var step := IqSpec.Process(d.cnvF, FloatSamples(raw));
          (d1.(cnvF := step.next), FloatBlock(step.out, SampleCount / 2))
        case Float32Real => (d1, FloatBlock(FloatSamples(raw), SampleCount))
        case Int16Iq =>
          var pass := iq16(d.cnvI, Int16Samples(raw));
          (d1.(cnvI := pass.next), Int16Block(pass.out, SampleCount / 2))
        case Int16Real => (d1, Int16Block(Int16Samples(raw), SampleCount));
      Delivered(d2.(stopRequested := userResult != 0), block)
  }

  // --------------------------------------------------- start, stop, teardown

  /** Submission of all transfers: `Other` when no transfers exist
      (`haveTransfers` false), `Libusb` at the first submission that fails, otherwise
      `Success`.  `submits[i]` says whether submitting transfer `i` succeeds. */
  function PrepareTransfers(haveTransfers: bool, submits: seq<bool>): (s: Status)
    requires |submits| == TransferCount
    ensures s == Success <==> haveTransfers && forall i :: 0 <= i < |submits| ==> submits[i]
    ensures s == Other <==> !haveTransfers
    ensures s in {Success, Libusb, Other}
  {
    if !haveTransfers then Other
    else if forall i :: 0 <= i < |submits| ==> submits[i] then Success
    else Libusb
  }

  /** Starts the stream unless one is running or stopping (`Busy`, nothing
      changes).  `streaming` is raised before the transfers are submitted, so
      a submission failure (`prepared`) or a thread creation failure
      (`conversionThreadOk`, `transferThreadOk`) returns with `streaming`
      still raised. */
  function CreateIoThreads(d: Device, prepared: Status, conversionThreadOk: bool, transferThreadOk: bool)
    : (r: (Device, Status))
    requires prepared in {Success, Libusb, Other}
    ensures r.1 == Busy <==> d.streaming || d.stopRequested
    ensures r.1 == Busy ==> r.0 == d
    ensures r.1 != Busy ==> r.0 == d.(streaming := true)
    ensures r.1 == Success <==> !d.streaming && !d.stopRequested && prepared == Success
                                && conversionThreadOk && transferThreadOk
    ensures r.1 != Busy && prepared != Success ==> r.1 == prepared
    ensures r.1 == Thread <==> r.1 != Busy && prepared == Success && !(conversionThreadOk && transferThreadOk)
    ensures Consistent(d) ==> Consistent(r.0)
  {
    if !d.streaming && !d.stopRequested then
      var d1 := d.(streaming := true);
      if prepared != Success then (d1, prepared)
      else if !conversionThreadOk then (d1, Thread)
      else if !transferThreadOk then (d1, Thread)
      else (d1, Success)
    else (d, Busy)
  }

  /** Stops a running stream: requests the stop, cancels the transfers,
      joins both threads, then lowers all three flags.  A no-op when not
      streaming.  Always `Success`. */
  function KillIoThreads(d: Device): (r: (Device, Status))
    ensures r.1 == Success
    ensures d.streaming ==> Idle(r.0) && r.0 == d.(streaming := false, stopRequested := false, dataAvailable := false)
    ensures !d.streaming ==> r.0 == d
    ensures Consistent(d) ==> Idle(r.0) || (r.0 == d && !d.streaming && !d.stopRequested)
  {
    if d.streaming then
      var stopping := d.(stopRequested := true);
      (stopping.(stopRequested := false, streaming := false, dataAvailable := false), Success)
    else (d, Success)
  }

  /** The receiver-mode control request: `Libusb` unless the transfer
      returned 0. */
  function SetReceiverMode(transferResult: int): (s: Status)
    ensures s == Success <==> transferResult == 0
    ensures s == Success || s == Libusb
  {
    if transferResult != 0 then Libusb else Success
  }

  /** Starts streaming: switches the receiver on, and only if that succeeds
      creates the stream. */
  function StartRx(d: Device, modeResult: int, prepared: Status, conversionThreadOk: bool, transferThreadOk: bool)
    : (r: (Device, Status))
    requires prepared in {Success, Libusb, Other}
    ensures modeResult != 0 ==> r == (d, Libusb)
    ensures modeResult == 0 ==> r == CreateIoThreads(d, prepared, conversionThreadOk, transferThreadOk)
  {
    var mode := SetReceiverMode(modeResult);
    if mode == Success then CreateIoThreads(d, prepared, conversionThreadOk, transferThreadOk)
    else (d, mode)
  }

  /** Stops streaming: tears the stream down, then switches the receiver
      off; the receiver-mode error, if any, is returned in preference to the
      teardown result. */
  function StopRx(d: Device, modeResult: int): (r: (Device, Status))
    ensures r.0 == KillIoThreads(d).0
    ensures r.1 == (if modeResult != 0 then Libusb else KillIoThreads(d).1)
    ensures Consistent(d) ==> !r.0.streaming && !r.0.stopRequested
  {
    var (d1, r1) := KillIoThreads(d);
    var r2 := SetReceiverMode(modeResult);
    if r2 != Success then (d1, r2) else (d1, r1)
  }
}

=== FILE: streaming_props.dfy ===
/** Properties of the streaming steps, each taken as one atomic step: the
    steps keep the stop flag raised only while streaming, a stop then always
    makes room for the next start, and over
    any interleaving of completions and conversion passes every accepted
    block is either copied or dropped, no copied block is lost, and the
    conversion thread delivers at most one block more than it consumes. */
module StreamingProps {
  import opened SampleDecode
  import opened Streaming
  import IqSpec

  // ------------------------------------------------------ start/stop rules

  /** After a stop, starting again is never refused as busy. */
  lemma StopThenStartNotBusy(d: Device, modeResult: int, prepared: Status, convOk: bool, xferOk: bool)
    requires Consistent(d) && prepared in {Success, Libusb, Other}
    ensures CreateIoThreads(StopRx(d, modeResult).0, prepared, convOk, xferOk).1 != Busy
  {
  }

  /** Without the consistency invariant the rule fails: a device with a stop
      pending but no stream stays busy for ever, since teardown only acts
      while streaming. */
  lemma StuckStopStaysBusy(d: Device, modeResult: int, prepared: Status, convOk: bool, xferOk: bool)
    requires !d.streaming && d.stopRequested && prepared in {Success, Libusb, Other}
    ensures StopRx(d, modeResult).0 == d
    ensures CreateIoThreads(StopRx(d, modeResult).0, prepared, convOk, xferOk).1 == Busy
  {
  }

  lemma KillIdempotent(d: Device)
    ensures KillIoThreads(KillIoThreads(d).0) == KillIoThreads(d)
  {
  }

  /** A start that fails after raising `streaming` leaves a stream that only
      a stop can clear: a second start is busy. */
  lemma FailedStartNeedsStop(d: Device, prepared: Status, convOk: bool, xferOk: bool,
                             prepared2: Status, convOk2: bool, xferOk2: bool)
    requires Idle(d) && prepared in {Success, Libusb, Other} && prepared2 in {Success, Libusb, Other}
    requires CreateIoThreads(d, prepared, convOk, xferOk).1 != Success
    ensures CreateIoThreads(d, prepared, convOk, xferOk).0.streaming
    ensures CreateIoThreads(CreateIoThreads(d, prepared, convOk, xferOk).0, prepared2, convOk2, xferOk2).1 == Busy
  {
  }

  // ------------------------------------------------------------ interleaving

  /** One step of either thread: a transfer completion, or the conversion
      thread's turn. */
  datatype Event = Complete(completed: bool, data: seq<Raw>, resubmitOk: bool) | Convert(userResult: int)

  /** The device, whether the conversion thread has passed its first
      delivery (and so blocks until woken), and counts of blocks accepted
      by the completion handler, copied, dropped, delivered to the user, and
      consumed (delivered from a pending copy). */
  datatype Sys = Sys(dev: Device, waiting: bool, accepted: nat, copies: nat, dropped: nat,
                     deliveries: nat, consumed: nat)

  /** The conversion thread leaves its wait when a block is pending, a stop
      is requested or the stream ended. */
  predicate Wakes(d: Device) {
    d.dataAvailable || d.stopRequested || !d.streaming
  }

  /** A completion carries a whole transfer. */
  predicate Fits(e: Event) {
    e.Complete? ==> |e.data| == SampleCount
  }

  function Apply(s: Sys, e: Event, iq16: (Int16State, seq<I16>) -> Int16Pass): (t: Sys)
    requires Sized(s.dev) && Fits(e)
    ensures Sized(t.dev) && t.dev.totalDropped == s.dev.totalDropped
  {
    match e
    case Complete(completed, data, resubmitOk) =>
      var c := TransferCallback(s.dev, completed, data, resubmitOk);
      var taken := s.dev.streaming && !s.dev.stopRequested && completed;
      s.(dev := c.dev,
         accepted := s.accepted + (if taken then 1 else 0),
         copies := s.copies + (if c.copied then 1 else 0),
         dropped := s.dropped + (if taken && !c.copied then 1 else 0))
    case Convert(userResult) =>
      if s.waiting && !Wakes(s.dev) then s
      else
        match ConversionStep(s.dev, iq16, userResult)
        case Exited => s
        case Delivered(d, _) =>
          s.(dev := d, waiting := true, deliveries := s.deliveries + 1,
             consumed := s.consumed + (if s.dev.dataAvailable then 1 else 0))
  }

  predicate AllFit(events: seq<Event>) {
    forall i :: 0 <= i < |events| ==> Fits(events[i])
  }

  function Replay(s: Sys, events: seq<Event>, iq16: (Int16State, seq<I16>) -> Int16Pass): (t: Sys)
    requires Sized(s.dev) && AllFit(events)
    ensures Sized(t.dev) && t.dev.totalDropped == s.dev.totalDropped
    decreases |events|
  {
    if events == [] then s
    else Replay(Apply(s, events[0], iq16), events[1..], iq16)
  }

  /** Both IQ converters resume from the state the previous pass left: two
      passes over the same receive buffer filter it twice in a row, so their
      blocks agree only where the converter's state makes no difference. */
  lemma PassesThreadConverterState(d: Device, iq16: (Int16State, seq<I16>) -> Int16Pass, userResult: int)
    requires Sized(d) && d.streaming && !d.stopRequested
    ensures var r1 := ConversionStep(d, iq16, 0);
            && r1.Delivered?
            && var r2 := ConversionStep(r1.dev, iq16, userResult);
            && r2.Delivered?
            && (d.sampleType == Int16Iq ==>
                  var x := Int16Samples(d.received);
                  r2.block.Int16Block? && r2.block.s == iq16(iq16(d.cnvI, x).next, x).out)
            && (d.sampleType == Float32Iq ==>
                  var x := FloatSamples(d.received);
                  r2.block.FloatBlock? && r2.block.f == IqSpec.Process(IqSpec.Process(d.cnvF, x).next, x).out)
  {
  }

  /** The block bookkeeping of a stream, counted from its start: every
      state reached from a start by completions and conversion passes
      satisfies it. */
  predicate Ledger(s: Sys) {
    && Consistent(s.dev)
    && s.accepted == s.copies + s.dropped
    && s.copies == s.consumed + (if s.dev.dataAvailable then 1 else 0)
    && s.deliveries <= s.consumed + 1
    && (!s.waiting ==> s.deliveries == 0)
  }

  /** The state right after a start that was not refused as busy, with all
      counters at zero except a block still pending from an earlier stream,
      which counts as copied. */
  lemma StartSatisfiesLedger(d: Device)
    requires !d.streaming && !d.stopRequested
    ensures var k := if d.dataAvailable then 1 else 0;
            Ledger(Sys(d.(streaming := true), false, k, k, 0, 0, 0))
  {
  }

  /** A block copied just before a transfer fails outlives its stream: the
      failure lowers `streaming` with the block still pending, the stop that
      follows finds nothing streaming and changes nothing, and the next start
      begins with the old block in the receive buffer, so the ledger of the
      new stream starts with one copy. */
  lemma StaleBlockSurvivesRestart(d: Device, a: seq<Raw>, dead: seq<Raw>, modeResult: int)
    requires Sized(d) && d.streaming && !d.stopRequested && !d.dataAvailable
    requires |a| == SampleCount && |dead| == SampleCount
    ensures var failed := TransferCallback(TransferCallback(d, true, a, true).dev, false, dead, true).dev;
            var started := CreateIoThreads(StopRx(failed, modeResult).0, Success, true, true);
            && started.1 == Success && started.0.streaming && started.0.dataAvailable
            && started.0.received == a
  {
  }

  lemma ApplyKeepsLedger(s: Sys, e: Event, iq16: (Int16State, seq<I16>) -> Int16Pass)
    requires Sized(s.dev) && Fits(e) && Ledger(s)
    ensures Ledger(Apply(s, e, iq16))
  {
    match e
    case Complete(completed, data, resubmitOk) =>
    case Convert(userResult) =>
      if !(s.waiting && !Wakes(s.dev)) {
        var r := ConversionStep(s.dev, iq16, userResult);
        if r.Delivered? {
          assert s.waiting ==> s.dev.dataAvailable;
        }
      }
  }

  /** Over any interleaving of completions and conversion passes: every
      accepted block is copied or dropped, every copied block is delivered
      or still pending, the conversion thread delivers at most one block
      (its first) that it did not consume, and the dropped-sample counter is
      never advanced even though blocks are dropped. */
  lemma {:induction false} ReplayKeepsLedger(s: Sys, events: seq<Event>, iq16: (Int16State, seq<I16>) -> Int16Pass)
    requires Sized(s.dev) && AllFit(events) && Ledger(s)
    ensures Ledger(Replay(s, events, iq16))
    decreases |events|
  {
    if events != [] {
      ApplyKeepsLedger(s, events[0], iq16);
      assert AllFit(events[1..]);
      ReplayKeepsLedger(Apply(s, events[0], iq16), events[1..], iq16);
    }
  }

  /** Two completions with no conversion pass between them: the second
      block is dropped, the first stays in the receive buffer, and the
      dropped-sample counter does not move. */
  lemma SecondBlockDropped(d: Device, a: seq<Raw>, b: seq<Raw>, iq16: (Int16State, seq<I16>) -> Int16Pass)
    requires Sized(d) && d.streaming && !d.stopRequested && !d.dataAvailable
    requires |a| == SampleCount && |b| == SampleCount
    ensures var s := Replay(Sys(d, false, 0, 0, 0, 0, 0), [Complete(true, a, true), Complete(true, b, true)], iq16);
            s.dropped == 1 && s.copies == 1 && s.dev.received == a && s.dev.totalDropped == d.totalDropped
  {
    var s0 := Sys(d, false, 0, 0, 0, 0, 0);
    var events := [Complete(true, a, true), Complete(true, b, true)];
    assert AllFit(events);
    var s1 := Apply(s0, events[0], iq16);
    assert s1.dev.received == a;
    var s2 := Apply(s1, events[1], iq16);
    assert events[1..][1..] == [];
    assert Replay(s0, events, iq16) == Replay(s1, events[1..], iq16);
    assert Replay(s1, events[1..], iq16) == Replay(s2, [], iq16);
  }
}

=== FILE: unpack.dfy ===
/** The 12-bit sample unpacker of the packed transfer format, and the sample
    counts the streaming code derives from a transfer's byte size.

    In the packed format every 12 bytes (three little-endian 32-bit words)
    carry eight 12-bit samples, least significant sample first.  The
    unpacker is compiled out in the shipped configuration, but it is part of
    the source and its count arithmetic disagrees with the streaming code's. */
module Unpack {
  import Streaming

  /** Bytes in one packed group of three words. */
  const PacketSize: nat := 12
  /** Samples per packed group, doubled (the count formula divides by two first). */
  const UnpackedSize: nat := 16
  /** One packed group read as a single 96-bit little-endian value:
      `w0 + w1 * 2^32 + w2 * 2^64`. */
  function Group96(w0: bv32, w1: bv32, w2: bv32): bv96 {
    (w2 as bv96 << 64) | (w1 as bv96 << 32) | (w0 as bv96)
  }

  /** The three little-endian words of a 96-bit group. */
  function Words(g: bv96): (w: seq<bv32>)
    ensures |w| == 3
  {
    [(g & 0xFFFF_FFFF) as bv32, ((g >> 32) & 0xFFFF_FFFF) as bv32, (g >> 64) as bv32]
  }

  /** Splitting a joined group gives its words back. */
  lemma WordsOfGroup(w0: bv32, w1: bv32, w2: bv32)
    ensures Words(Group96(w0, w1, w2)) == [w0, w1, w2]
  {
    LowWord(w0, w1, w2);
    MiddleWord(w0, w1, w2);
    HighWord(w0, w1, w2);
  }

  lemma LowWord(w0: bv32, w1: bv32, w2: bv32)
    ensures (Group96(w0, w1, w2) & 0xFFFF_FFFF) as bv32 == w0
  {
  }

  lemma MiddleWord(w0: bv32, w1: bv32, w2: bv32)
    ensures ((Group96(w0, w1, w2) >> 32) & 0xFFFF_FFFF) as bv32 == w1
  {
  }

  lemma HighWord(w0: bv32, w1: bv32, w2: bv32)
    ensures (Group96(w0, w1, w2) >> 64) as bv32 == w2
  {
  }

  /** Sample `k` of a group, independently of the unpacker: bits `12k` to
      `12k + 11` of the 96-bit group. */
  function Field(g: bv96, k: nat): (v: bv16)
    requires k < 8
    ensures v < 0x1000
  {
    ((g >> (k as bv7 * 12)) & 0xFFF) as bv16
  }

  /** All eight samples of a group, by bit position. */
  function Fields(g: bv96): (s: seq<bv16>)
    ensures |s| == 8 && Samples12(s)
  {
    [Field(g, 0), Field(g, 1), Field(g, 2), Field(g, 3), Field(g, 4), Field(g, 5), Field(g, 6), Field(g, 7)]
  }

  /** The eight samples of one group, with the word masks and shifts of the
      unpacker. */
  function UnpackGroup(w0: bv32, w1: bv32, w2: bv32): (s: seq<bv16>)
    ensures |s| == 8
  {
    [ (w0 & 0xFFF) as bv16,
      ((w0 >> 12) & 0xFFF) as bv16,
      ((w0 >> 24) | ((w1 << 8) & 0xF00)) as bv16,
      ((w1 >> 4) & 0xFFF) as bv16,
      ((w1 >> 16) & 0xFFF) as bv16,
      ((w1 >> 28) | ((w2 << 4) & 0xFF0)) as bv16,
      ((w2 >> 8) & 0xFFF) as bv16,
      (w2 >> 20) as bv16 ]
  }

  /** Sample `k` of the unpacker's output is bits `12k` to `12k + 11` of the
      group; in particular every sample is below 4096. */
  lemma UnpackGroupIsFields(w0: bv32, w1: bv32, w2: bv32)
    ensures UnpackGroup(w0, w1, w2) == Fields(Group96(w0, w1, w2))
    ensures Samples12(UnpackGroup(w0, w1, w2))
  {
    UnpackFields(w0, w1, w2);
  }

  lemma UnpackFields(w0: bv32, w1: bv32, w2: bv32)
    ensures var g := Group96(w0, w1, w2);
            && Field(g, 0) == (w0 & 0xFFF) as bv16
            && Field(g, 1) == ((w0 >> 12) & 0xFFF) as bv16
            && Field(g, 2) == ((w0 >> 24) | ((w1 << 8) & 0xF00)) as bv16
            && Field(g, 3) == ((w1 >> 4) & 0xFFF) as bv16
            && Field(g, 4) == ((w1 >> 16) & 0xFFF) as bv16
            && Field(g, 5) == ((w1 >> 28) | ((w2 << 4) & 0xFF0)) as bv16
            && Field(g, 6) == ((w2 >> 8) & 0xFFF) as bv16
            && Field(g, 7) == (w2 >> 20) as bv16
  {
  }

  /** Values that fit in 12 bits. */
  predicate Samples12(s: seq<bv16>) {
    forall k :: 0 <= k < |s| ==> s[k] < 0x1000
  }

  /** The 96-bit group holding eight 12-bit samples, sample `k` at bit `12k`. */
  function Join(s: seq<bv16>): (g: bv96)
    requires |s| == 8 && Samples12(s)
    ensures Fields(g) == s
  {
    JoinFields(s[0], s[1], s[2], s[3], s[4], s[5], s[6], s[7]);
    (s[0] as bv96) | (s[1] as bv96 << 12) | (s[2] as bv96 << 24) | (s[3] as bv96 << 36)
    | (s[4] as bv96 << 48) | (s[5] as bv96 << 60) | (s[6] as bv96 << 72) | (s[7] as bv96 << 84)
  }

  lemma JoinFields(s0: bv16, s1: bv16, s2: bv16, s3: bv16, s4: bv16, s5: bv16, s6: bv16, s7: bv16)
    requires s0 < 0x1000 && s1 < 0x1000 && s2 < 0x1000 && s3 < 0x1000
    requires s4 < 0x1000 && s5 < 0x1000 && s6 < 0x1000 && s7 < 0x1000
    ensures var g := (s0 as bv96) | (s1 as bv96 << 12) | (s2 as bv96 << 24) | (s3 as bv96 << 36)
                     | (s4 as bv96 << 48) | (s5 as bv96 << 60) | (s6 as bv96 << 72) | (s7 as bv96 << 84);
            && Field(g, 0) == s0 && Field(g, 1) == s1 && Field(g, 2) == s2 && Field(g, 3) == s3
            && Field(g, 4) == s4 && Field(g, 5) == s5 && Field(g, 6) == s6 && Field(g, 7) == s7
  {
  }

  /** The packer: the three words of the group holding `s`.  Unpacking them
      gives `s` back. */
  function PackGroup(s: seq<bv16>): (w: seq<bv32>)
    requires |s| == 8 && Samples12(s)
    ensures |w| == 3 && UnpackGroup(w[0], w[1], w[2]) == s
  {
    var g := Join(s);
    var w := Words(g);
    GroupOfWords(g);
    assert Group96(w[0], w[1], w[2]) == g;
    UnpackGroupIsFields(w[0], w[1], w[2]);
    w
  }

  /** Joining the words of a group gives the group back. */
  lemma GroupOfWords(g: bv96)
    ensures Group96(Words(g)[0], Words(g)[1], Words(g)[2]) == g
  {
  }

  /** Packing what the unpacker produced gives the same three words back. */
  lemma UnpackThenPack(w0: bv32, w1: bv32, w2: bv32)
    ensures var s := UnpackGroup(w0, w1, w2);
            Samples12(s) && PackGroup(s) == [w0, w1, w2]
  {
    var s := UnpackGroup(w0, w1, w2);
    var g := Group96(w0, w1, w2);
    UnpackGroupIsFields(w0, w1, w2);
    FieldsJoin(g);
    assert Join(s) == g;
    WordsOfGroup(w0, w1, w2);
  }

  /** A 96-bit group is the join of its eight fields. */
  lemma FieldsJoin(g: bv96)
    ensures Join(Fields(g)) == g
  {
    var s := Fields(g);
    assert Join(s) == (Field(g, 0) as bv96) | (Field(g, 1) as bv96 << 12) | (Field(g, 2) as bv96 << 24)
      | (Field(g, 3) as bv96 << 36) | (Field(g, 4) as bv96 << 48) | (Field(g, 5) as bv96 << 60)
      | (Field(g, 6) as bv96 << 72) | (Field(g, 7) as bv96 << 84);
    JoinOfFields(g);
  }

  lemma JoinOfFields(g: bv96)
    ensures (Field(g, 0) as bv96) | (Field(g, 1) as bv96 << 12) | (Field(g, 2) as bv96 << 24)
      | (Field(g, 3) as bv96 << 36) | (Field(g, 4) as bv96 << 48) | (Field(g, 5) as bv96 << 60)
      | (Field(g, 6) as bv96 << 72) | (Field(g, 7) as bv96 << 84) == g
  {
  }

  // ------------------------------------------------------------ whole buffers

  /** The samples of the first `groups` packed groups of `words`, in order. */
  function Unpacked(words: seq<bv32>, groups: nat): (s: seq<bv16>)
    requires 3 * groups <= |words|
    ensures |s| == 8 * groups && Samples12(s)
  {
    if groups == 0 then []
    else
      var p := 3 * (groups - 1);
      UnpackGroupIsFields(words[p], words[p + 1], words[p + 2]);
      Unpacked(words, groups - 1) + UnpackGroup(words[p], words[p + 1], words[p + 2])
  }

  /** The unpacker over a buffer of `len` bytes, viewed as 32-bit words:
      whole 12-byte groups only, three words in and eight samples out per
      group; a trailing partial group is ignored. */
  method UnpackSamples(words: seq<bv32>, len: int) returns (dest: seq<bv16>)
    requires 0 <= len && 3 * (len / PacketSize) <= |words|
    ensures |dest| == UnpackedSampleCount(len) && Samples12(dest)
    ensures dest == Unpacked(words, len / PacketSize)
  {
    var iter := len / PacketSize;
    var p := 0;
    dest := [];
    var i := 0;
    while i < iter
      invariant 0 <= i <= iter && p == 3 * i
      invariant dest == Unpacked(words, i)
    {
      dest := dest + UnpackGroup(words[p], words[p + 1], words[p + 2]);
      p := p + 3;
      i := i + 1;
    }
  }

  /** The packer over whole groups: the words whose unpacking is `s`. */
  function PackAll(s: seq<bv16>): (w: seq<bv32>)
    requires |s| % 8 == 0 && Samples12(s)
    ensures |w| == 3 * (|s| / 8)
    decreases |s|
  {
    if s == [] then []
    else
      var n := |s| - 8;
      assert Samples12(s[..n]) && Samples12(s[n..]);
      PackAll(s[..n]) + PackGroup(s[n..])
  }

  /** Unpacking a packed buffer gives its samples back. */
  lemma {:induction false} PackAllRoundTrip(s: seq<bv16>)
    requires |s| % 8 == 0 && Samples12(s)
    ensures Unpacked(PackAll(s), |s| / 8) == s
    decreases |s|
  {
    if s != [] {
      var n := |s| - 8;
      var g := |s| / 8;
      PackAllLast(s, g);
      PackAllRoundTrip(s[..n]);
      LastGroup(PackAll(s[..n]), PackGroup(s[n..]), g);
      SplitAt(s, n);
    }
  }

  /** A non-empty buffer packs as its prefix followed by its last group. */
  lemma PackAllLast(s: seq<bv16>, g: nat)
    requires |s| % 8 == 0 && Samples12(s) && s != [] && g == |s| / 8
    ensures Samples12(s[..|s| - 8]) && Samples12(s[|s| - 8..])
    ensures |s[..|s| - 8]| / 8 == g - 1 && |PackAll(s[..|s| - 8])| == 3 * (g - 1)
    ensures PackAll(s) == PackAll(s[..|s| - 8]) + PackGroup(s[|s| - 8..])
  {
    var n := |s| - 8;
    assert Samples12(s[..n]) && Samples12(s[n..]);
  }

  lemma SplitAt(s: seq<bv16>, n: nat)
    requires n <= |s|
    ensures s[..n] + s[n..] == s
  {
  }

  /** Unpacking `head` followed by one more group of three words. */
  lemma LastGroup(head: seq<bv32>, tail: seq<bv32>, groups: nat)
    requires groups >= 1 && |head| == 3 * (groups - 1) && |tail| == 3
    ensures Unpacked(head + tail, groups)
         == Unpacked(head, groups - 1) + UnpackGroup(tail[0], tail[1], tail[2])
  {
    var w := head + tail;
    var p := 3 * (groups - 1);
    assert w[p] == tail[0] && w[p + 1] == tail[1] && w[p + 2] == tail[2];
    UnpackedPrefix(head, tail, groups - 1);
  }

  /** Unpacking the first groups only looks at their words. */
  lemma {:induction false} UnpackedPrefix(a: seq<bv32>, b: seq<bv32>, groups: nat)
    requires 3 * groups <= |a|
    ensures Unpacked(a + b, groups) == Unpacked(a, groups)
  {
    if groups > 0 {
      var p := 3 * (groups - 1);
      UnpackedPrefix(a, b, groups - 1);
      assert (a + b)[p] == a[p] && (a + b)[p + 1] == a[p + 1] && (a + b)[p + 2] == a[p + 2];
    }
  }

  // ------------------------------------------------------------ sample counts

  /** The packed-mode sample count, computed as the streaming code computes
      it from the transfer size: halve, times `UnpackedSize`, over
      `PacketSize`, each step truncating. */
  function PackedSampleCount(bufferSize: nat): (n: nat)
    ensures n <= bufferSize * 4 / 3
  {
    bufferSize / 2 * UnpackedSize / PacketSize
  }

  /** For the transfer size the device uses, the packed-mode count claims
      two more samples than the unpacker writes, and is not a multiple of
      four, so the IQ converter's four-sample groups run past it. */
  lemma PackedCountOverrunsUnpacker()
    ensures PackedSampleCount(Streaming.BufferSize) == 8 * (Streaming.BufferSize / PacketSize) + 2
    ensures PackedSampleCount(Streaming.BufferSize) % 4 == 2
  {
  }

  /** The packed-mode sample count as the unpacker defines it: eight per
      whole group. */
  function UnpackedSampleCount(bufferSize: nat): (n: nat)
    ensures n % 8 == 0 && n <= bufferSize * 2 / 3
  {
    8 * (bufferSize / PacketSize)
  }

  /** For an even transfer size the two counts agree exactly when the size is
      a whole number of packed groups. */
  lemma {:induction false} PackedCountAgreement(bufferSize: nat)
    requires bufferSize % 2 == 0
    ensures PackedSampleCount(bufferSize) == UnpackedSampleCount(bufferSize) <==> bufferSize % PacketSize == 0
  {
    var half := bufferSize / 2;
    var m := bufferSize / PacketSize;
    var r := bufferSize % PacketSize;
    Halves(bufferSize, half, m, r);
    DivShift(8 * m, 8 * r);
  }

  /** An even size `12m + r` has an even remainder, and its half times 16 is
      `12 * 8m + 8r`. */
  lemma Halves(bufferSize: nat, half: nat, m: nat, r: nat)
    requires bufferSize % 2 == 0 && half == bufferSize / 2
    requires m == bufferSize / 12 && r == bufferSize % 12
    ensures half * 16 == 12 * (8 * m) + 8 * r && r < 12
    ensures 8 * r / 12 == 0 <==> r == 0
  {
    assert bufferSize == 2 * half;
    assert bufferSize == 12 * m + r;
  }

  lemma DivShift(a: int, b: nat)
    ensures (12 * a + b) / 12 == a + b / 12
  {
  }
}
